=== FILE: README.md ===
# VibeTunes mood-to-track pipeline, modelled in Dafny

VibeTunes turns a free-text mood ("chill rainy sunday") into a playlist.
The pipeline exists twice in the repository.

- **Next.js API routes.**
  - `POST /api/generate-playlist` interprets the mood, with an AI model first and a fixed keyword table as fallback. It then searches the Spotify catalogue for the first three terms, filters and de-duplicates the results, and assembles a playlist. When no Spotify app token can be had, it serves a canned demo playlist instead.
  - `POST /api/create-playlist` looks tracks up by id in batches of 50. It then either builds a demo playlist from them, or creates a real playlist on the user's account and adds the tracks in batches of 100 URIs. A real attempt that fails falls back to a demo playlist.
- **Express server** (`spotify.ts`, `routes.ts` and their bundled copy `index.js`). It keeps one cached client-credentials token with a 55-minute lifetime. It builds a single search query from an AI mood analysis, keeps the first 15 tracks that have a preview, and writes a playlist description with a high/medium/low energy label. A request logger cuts log lines to 80 characters.

The model is purely functional. Every upstream call is a parameter rather than a network request: the AI reply, the client-credentials grant, the token endpoint, the search and lookup pages, and the user-token playlist endpoints. Helper functions such as `JSON.parse`, `encodeURIComponent`, `Date.now()` and the AI mood analysis are parameters too. Each route is then a total function from its inputs to its response, together with the requests it issued, in order. The token cache is also a small class whose clock is a method argument.

Modules, one per file:

| file | module | models |
|---|---|---|
| wrappers.dfy | `Wrappers` | `Option`, `Result` |
| text.dfy | `Text` | JavaScript string helpers: `slice` prefix, ASCII `toLowerCase`, `includes`, `trim`, `join`, decimal rendering |
| config.dfy | `Config` | environment variables, JavaScript truthiness, the Next.js app token |
| http.dfy | `Http` | the `mood` body field, HTTP status codes |
| batching.dfy | `Batching` | the `for (i = 0; i < n; i += size) slice(i, i + size)` batching loops |
| catalog.dfy | `Catalog` | the raw catalogue item, its usability filter and the `Track` mapping |
| keywords.dfy | `Keywords` | `moodToSearchTerms` and `extractKeywordsFromMood` |
| interpreter.dfy | `Interpreter` | `interpretMoodWithAI`: reply cleaning and acceptance |
| term_search.dfy | `TermSearch` | `searchTracks`: three searches, filter, de-duplication, cap of 20 |
| lookup.dfy | `Lookup` | `searchTracksByIds`: batches of 50, all-or-nothing |
| generate_playlist.dfy | `GeneratePlaylist` | the generate route and `generateDemoPlaylist` |
| create_playlist.dfy | `CreatePlaylist` | the create route: validation, demo path, real path, fallback |
| token_cache.dfy | `TokenCache` | `getSpotifyToken` of the Express server |
| server_search.dfy | `ServerSearch` | `searchSpotifyTracks` of the Express server |
| server_routes.dfy | `ServerRoutes` | the Express generate route, mood schema and energy label |
| request_log.dfy | `RequestLog` | the `/api` request log line of `index.js` |

## Model

| member | source | states |
|---|---|---|
| Keywords.ExtractKeywords | finalfinal/src/app/api/generate-playlist/route.ts:120-136 | The fallback interpreter always yields between one and five terms. The generic list "mood", "vibe", "feeling" comes back exactly when no category name occurs in the lower-cased mood. |
| Keywords.KeywordsFromMatchedCategories | finalfinal/src/app/api/generate-playlist/route.ts:124-128 | When some category matches, every keyword is one of the first two terms of a matching category. The contributing categories appear in table order, and no generic term is mixed in. |
| Keywords.KeywordsCompleteBelowCap | finalfinal/src/app/api/generate-playlist/route.ts:124-135 | When fewer than five keywords result, none was dropped: every lead term of every matching category is among them. |
| Keywords.KeywordsIgnoreCase | finalfinal/src/app/api/generate-playlist/route.ts:121 | Two moods with the same lower-cased form get the same keywords, and lower-casing a mood first changes nothing. |
| Keywords.MoodTableShape | finalfinal/src/app/api/generate-playlist/route.ts:31-42 | Every category of the table has at least two terms, and none of the leading terms is a generic term. |
| Interpreter.InterpretMoodWithAI | finalfinal/src/app/api/generate-playlist/route.ts:59-118 | The interpretation always succeeds with at least one term. It is the parsed AI array exactly when the key is set, the call answered, and the cleaned reply parses to a non-empty array. Every other case yields the keyword fallback. |
| Interpreter.CleanFencedReply | finalfinal/src/app/api/generate-playlist/route.ts:91 | Cleaning a reply wrapped in a json code fence gives back exactly the body inside the fence. |
| Interpreter.CleanBareReply | finalfinal/src/app/api/generate-playlist/route.ts:91 | A reply with no surrounding white space and no fence reaches the parser unchanged. |
| Interpreter.FenceIsTransparent | finalfinal/src/app/api/generate-playlist/route.ts:89-96 | Fencing a clean answer does not change the interpretation. |
| Interpreter.NoKeyMeansFallback | finalfinal/src/app/api/generate-playlist/route.ts:62-116 | Without an AI key the result is the keyword fallback, whatever the AI would have said. |
| Config.AppAccessToken | finalfinal/src/app/api/generate-playlist/route.ts:44-57 | The app token is available exactly when both credentials are set and the grant succeeds. It is then the grant's token. |
| TermSearch.Requests | finalfinal/src/app/api/generate-playlist/route.ts:141-147 | One search request per term of the first three, in term order. |
| TermSearch.FailedRequestIsSkipped | finalfinal/src/app/api/generate-playlist/route.ts:142-166 | A rejected search is isolated: the gathered tracks are those of the other requests, as if it had never been made. |
| TermSearch.DedupSpec | finalfinal/src/app/api/generate-playlist/route.ts:169-172 | De-duplication leaves no repeated id and loses no id. It keeps the survivors in their original order, and each survivor is the first track of its id. |
| TermSearch.FirstOccurrenceIff | finalfinal/src/app/api/generate-playlist/route.ts:170-172 | The `findIndex` test keeps a track exactly when its id has not been seen earlier in the list. |
| TermSearch.DedupWithSeenSet | finalfinal/src/app/api/generate-playlist/route.ts:170-172 | A single pass with a set of seen ids computes the same list as the element-by-element filter. |
| TermSearch.SearchTracksSpec | finalfinal/src/app/api/generate-playlist/route.ts:138-175 | At most three requests are made, querying the first terms in order. The result is the first min(20, n) of the n de-duplicated gathered tracks, in order, so no two share an id. Each track has an id and a name and converts a usable item of a searched page. The result is empty exactly when no searched page had a usable item. |
| TermSearch.GatherFromPages | finalfinal/src/app/api/generate-playlist/route.ts:142-163 | Every gathered track is the conversion of a usable item of the page some search request received. |
| TermSearch.GatherEmpty | finalfinal/src/app/api/generate-playlist/route.ts:142-166 | Nothing is gathered exactly when every search was rejected or returned no usable item. |
| TermSearch.GatherNamed | finalfinal/src/app/api/generate-playlist/route.ts:152 | Every gathered track has a non-empty id and name. |
| TermSearch.RunSearchTracks | finalfinal/src/app/api/generate-playlist/route.ts:141-174 | The search loop issues exactly the requests, and returns exactly the tracks, that the functional definition describes. |
| Catalog.ToTrack | finalfinal/src/app/api/generate-playlist/route.ts:153-161 | Field mapping of a usable item:<br>- the artist names joined by ", ";<br>- the first album image or "";<br>- the Spotify URL or "". |
| Catalog.AcceptPage | finalfinal/src/app/api/generate-playlist/route.ts:149-163 | Every accepted track is the conversion of a usable item of the page. All items usable means all are kept; none usable means nothing is kept. Items are assumed to have the catalogue's shape (see Left out). |
| Catalog.AcceptPageEmpty | finalfinal/src/app/api/generate-playlist/route.ts:152 | A page contributes no track exactly when none of its items passes the required-field test. |
| Catalog.AcceptPageAppend | finalfinal/src/app/api/create-playlist/route.ts:63-80 | Accepting two pages one after the other gives the same tracks as accepting them together. |
| Batching.ChunksFlatten | finalfinal/src/app/api/create-playlist/route.ts:56-59 | The batches, put back together, are the original list. |
| Batching.ChunksBounded | finalfinal/src/app/api/create-playlist/route.ts:57-58 | Every batch is non-empty and at most the batch size. Every batch but the last is exactly the batch size. |
| Batching.ChunksCount | finalfinal/src/app/api/create-playlist/route.ts:57 | The number of batches is the ceiling of the list length over the batch size. |
| Batching.ChunkAt | finalfinal/src/app/api/create-playlist/route.ts:58 | Batch k is the slice from k times size to (k + 1) times size, cut at the end of the list. |
| Batching.SplitIntoChunks | finalfinal/src/app/api/create-playlist/route.ts:56-59 | The offset loop builds exactly the batches the recursive definition describes. |
| Lookup.LookupBatches | finalfinal/src/app/api/create-playlist/route.ts:55-64 | When no lookup fails, the lookups are made as follows:<br>- there are ceil(n / 50) of them, all with the given token;<br>- each holds at most 50 ids, and all but the last hold exactly 50;<br>- together they ask for every id once, in order. |
| Lookup.HundredTwentyIds | finalfinal/src/app/api/create-playlist/route.ts:57-58 | 120 ids are looked up in three requests: the first 50, the next 50, and the last 20. |
| Lookup.CollectedInBatchOrder | finalfinal/src/app/api/create-playlist/route.ts:61-82 | When no lookup fails, the result is the usable tracks of every page, in batch order and then in page order, for items of the catalogue's shape (see Left out). |
| Lookup.AnyFailureGivesNothing | finalfinal/src/app/api/create-playlist/route.ts:83-86 | If any lookup fails, the answer is empty, even when earlier batches had produced tracks. |
| Lookup.FirstFailureStops | finalfinal/src/app/api/create-playlist/route.ts:63-64 | Lookups stop at the first failing batch: that batch and the ones before it are asked for, and no later batch. |
| Lookup.IssuedWhenAllSucceed | finalfinal/src/app/api/create-playlist/route.ts:63-64 | When no lookup fails, exactly one lookup is made per batch, in batch order. |
| Lookup.CollectedBounded | finalfinal/src/app/api/create-playlist/route.ts:67-79 | When each page has at most one entry per id asked for, the lookup yields no more tracks than ids asked for. Every track returned has an id and a name. |
| Lookup.LookUpBatches | finalfinal/src/app/api/create-playlist/route.ts:61-82 | The lookup loop makes exactly the requests, and returns exactly the tracks, of the functional definition. It returns an empty list once a lookup fails. |
| Lookup.RunSearchTracksByIds | finalfinal/src/app/api/create-playlist/route.ts:51-87 | Batching and then looking up, as the route does it, agrees with the functional definition. |
| GeneratePlaylist.TruncatedNameShape | finalfinal/src/app/api/generate-playlist/route.ts:226 | A mood of at most 50 characters is kept whole. A longer one is cut to 50 and followed by "...". The name starts with its prefix and never exceeds it by more than 53 characters. |
| GeneratePlaylist.TruncatedNameReadsOnlyHead | finalfinal/src/app/api/generate-playlist/route.ts:334 | Two long moods that agree on their first 50 characters get the same name. |
| GeneratePlaylist.DemoSetPriority | finalfinal/src/app/api/generate-playlist/route.ts:263-330 | The canned list is chosen by the first matching branch, in this order: happy/joy/upbeat, then sad/melancholy, then energy/workout/gym, then default. Each case is stated as an if-and-only-if. |
| GeneratePlaylist.DemoSetIgnoresCase | finalfinal/src/app/api/generate-playlist/route.ts:259 | The choice of canned list ignores case. |
| GeneratePlaylist.DemoTracksSilent | finalfinal/src/app/api/generate-playlist/route.ts:264-329 | A demo playlist is never empty, and none of its tracks has a preview. |
| GeneratePlaylist.DemoPlaylist | finalfinal/src/app/api/generate-playlist/route.ts:332-338 | The demo playlist holds the canned list chosen for the mood, under the truncated "Demo: " name. |
| GeneratePlaylist.OuterCatch | finalfinal/src/app/api/generate-playlist/route.ts:239-253 | A failure whose message mentions Gemini, quota or location is answered with the 200 notice. Every other failure is answered with a 500. |
| GeneratePlaylist.Interpret | finalfinal/src/app/api/generate-playlist/route.ts:202-211 | The terms the route searches for are never empty. |
| GeneratePlaylist.EarlyOutcomes | finalfinal/src/app/api/generate-playlist/route.ts:179-199 | Early exits of the generate route, none of which searches:<br>- an unreadable body goes to the outer catch;<br>- a missing, empty or non-string mood is a 400;<br>- without an app token the demo playlist is served. |
| GeneratePlaylist.SearchOutcomes | finalfinal/src/app/api/generate-playlist/route.ts:213-238 | With a mood and a token, the route makes exactly the searches of `searchTracks`. No tracks means a 404, so a generated playlist is never empty. Otherwise the playlist has:<br>- the "Mood: " name;<br>- the AI description;<br>- a search link for the first term. |
| GeneratePlaylist.FallbackFlagNeverSet | finalfinal/src/app/api/generate-playlist/route.ts:206-211 | No input makes the route report the keyword fallback or use the fallback description. |
| CreatePlaylist.UriId | finalfinal/src/app/api/create-playlist/route.ts:163 | A string names a track exactly when it starts with "spotify:track:". |
| CreatePlaylist.UriRoundTrip | finalfinal/src/app/api/create-playlist/route.ts:164 | The id of the URI made from an id is that id. |
| CreatePlaylist.TrackUrisRecoverIds | finalfinal/src/app/api/create-playlist/route.ts:164 | The URI list gives back every id, in the original order. |
| CreatePlaylist.AddCallsWhenAllAdded | finalfinal/src/app/api/create-playlist/route.ts:167-170 | When every add succeeds, one add call is made per batch, in batch order. |
| CreatePlaylist.AddTracksBatches | finalfinal/src/app/api/create-playlist/route.ts:166-170 | The add calls, when all succeed:<br>- there are ceil(n / 100) of them, all to the new playlist;<br>- each holds at most 100 URIs, and all but the last hold exactly 100;<br>- together they send every id's URI once, in order. |
| CreatePlaylist.RealAttemptSucceeds | finalfinal/src/app/api/create-playlist/route.ts:141-174 | The real attempt succeeds exactly when four steps all work: the profile has an id, the playlist is created, every batch is added, and it is read back. The new playlist is private and not collaborative. |
| CreatePlaylist.MissingFieldsRejected | finalfinal/src/app/api/create-playlist/route.ts:93-98 | A missing name, a missing description, or a missing or empty id list is a 400 that touches no endpoint, and only such a request is one. |
| CreatePlaylist.DemoPathOutcomes | finalfinal/src/app/api/create-playlist/route.ts:101-137 | Without a user token, no user-token call is made:<br>- a 500 when the app token cannot be had;<br>- a 404 exactly when no track is found;<br>- otherwise a non-real playlist of the found tracks, named "Demo: " + name, with the demo-mode note. |
| CreatePlaylist.RealPathOutcomes | finalfinal/src/app/api/create-playlist/route.ts:141-224 | With a user token:<br>- a successful attempt yields the real playlist with the created playlist's id, name, description and Spotify URL, and with tracks looked up with the user's token;<br>- a failed one yields a 500 exactly when the fallback app token fails. Otherwise it yields a 200 non-real playlist named "Demo: " + name, with the creation-failed note and the tracks looked up with the app token;<br>- never a 404. |
| CreatePlaylist.RealFlagMeansCreated | finalfinal/src/app/api/create-playlist/route.ts:179-190 | The real-playlist flag is set exactly when a complete request with a user token has a successful real attempt. |
| CreatePlaylist.CreatedButReportedAsDemo | finalfinal/src/app/api/create-playlist/route.ts:194-223 | When adding tracks fails after the playlist was created, the playlist stays on the account, yet the answer is a demo playlist. |
| TokenCache.GetSpotifyToken | spotify.ts:26-61 | One call of the token cache:<br>- a fresh cached token is returned with no fetch;<br>- a fetch happens exactly when the cache is stale and credentials are set;<br>- missing credentials give their error;<br>- an error leaves the cache unchanged;<br>- the cache changes only on a granted token, which is then stored until now + 55 minutes. |
| TokenCache.RefreshThenHit | index.js:63-91 | After a refresh at t0, every call before t0 + 55 minutes returns the same token without fetching, whatever the endpoint or environment would say. |
| TokenCache.ExpiredIsRefetched | spotify.ts:27-50 | From its expiry on, a cached token is never used. With credentials the endpoint is asked again, and a failure there is reported rather than masked. |
| TokenCache.Cache.GetToken | spotify.ts:24-61 | The stateful cache returns, and stores, exactly what the functional step describes for the cache it held. |
| ServerSearch.QueryShape | spotify.ts:68-70 | The query is the keyword part followed directly by " genre:" and the genre part, with nothing between. It starts with " genre:" when there are no keywords. |
| ServerSearch.QueryReadsOnlyLeads | index.js:95-97 | Only the first three keywords and the first two genres reach the query. |
| ServerSearch.ToServerTrack | spotify.ts:101-110 | Server track mapping:<br>- the artists are joined by ", ";<br>- the album art is the first image or "";<br>- the duration, preview and Spotify URL are carried over. |
| ServerSearch.WithPreview | spotify.ts:99-110 | The filter keeps exactly the items with a truthy preview, converted, and nothing else. |
| ServerSearch.WithPreviewAppend | spotify.ts:99-110 | The filter goes through the items in input order: filtering two lists one after the other is filtering them joined. |
| ServerSearch.WithPreviewSingle | spotify.ts:99-110 | A single item is kept, converted, exactly when it carries a preview. |
| ServerSearch.WithPreviewCount | index.js:118 | The filter keeps as many tracks as there are items with a preview. |
| ServerSearch.PageTracksSpec | spotify.ts:99-111 | A successful search returns a prefix of the filtered list: 15 tracks, or all of them when fewer than 15 items have a preview, each with a preview. The filtered list keeps input order (`ServerSearch.WithPreviewAppend`), so these are the first 15 items that have a preview. |
| ServerSearch.PageTracksIgnoreRest | spotify.ts:111 | Once the first n items hold 15 with a preview, the items after them never reach the result. |
| ServerSearch.SearchSpotifyTracks | spotify.ts:63-118 | The search works as follows:<br>- a request is sent exactly when a token was obtained. It carries the token the cache returned, the built query, type "track" and limit 50;<br>- the result is tracks exactly when that search succeeded, and then it is the page's tracks;<br>- every failure carries the "Failed to search Spotify: " prefix. |
| ServerSearch.FailureIsRethrown | spotify.ts:114-117 | A token failure or a failed search is an error: there are no partial results. |
| ServerRoutes.ValidatedMood | routes.ts:9-11 | A mood is accepted exactly when it is a string of 3 to 500 characters. It is then kept as given. |
| ServerRoutes.MoodLengthEdges | index.js:137-139 | The bounds are inclusive: 3 and 500 characters pass, 2 and 501 do not. |
| ServerRoutes.EnergyBands | routes.ts:33 | "high" exactly above 0.7, "medium" exactly in (0.4, 0.7], "low" exactly at or below 0.4. |
| ServerRoutes.EnergyBoundaries | index.js:153 | An energy of exactly 0.7 is "medium", and exactly 0.4 is "low". |
| ServerRoutes.EnergyMonotone | routes.ts:33 | More energy never gives a lower label. |
| ServerRoutes.DescriptionQuotesMood | routes.ts:33 | The description quotes the mood, then names the ", "-joined genres and the tempo right after the quote, and ends with the energy label. Two different moods never share a description. |
| ServerRoutes.RouteOutcomes | routes.ts:15-51 | The Express route's outcomes:<br>- a 400 with the "Invalid mood input" error exactly when validation fails, leaving the cache untouched;<br>- a 500 exactly when the analysis or the search fails;<br>- otherwise a playlist named after the analysed mood, carrying the validated mood, the description and exactly the searched tracks. |
| RequestLog.TruncateLogLine | index.js:302-304 | A logged line never exceeds 80 characters. A line of at most 80 is kept. A longer one becomes its first 79 characters and "…", exactly 80. |
| RequestLog.TruncateIdempotent | index.js:302-304 | Cutting a line twice is the same as cutting it once. |
| RequestLog.TruncateKeepsOnlyHead | index.js:303 | Two long lines that agree on their first 79 characters are logged the same. |
| RequestLog.RequestLogLine | index.js:295-306 | A line is logged exactly for paths starting with "/api". It is at most 80 characters long and starts with the method and path when those fit. |
| RequestLog.ShortLineLoggedWhole | index.js:298-301 | A line that fits is logged whole, ending with the captured body. |

## Left out

- Upstream endpoints are modelled as functions of their request: the term search, the id lookup and the add-tracks call. Two identical requests within one route call therefore get the same answer. In the source they are separate network calls that can fail independently, for example a term the AI repeats whose first search times out and whose second succeeds. Per-call failure is modelled only for requests that differ.
- Network calls and libraries are parameters and are not modelled: the Spotify Web API client and `fetch`, the Gemini SDK, `JSON.parse` / `JSON.stringify`, `encodeURIComponent`, Buffer base64 encoding, `Date.now()` and `new Date().toISOString()`.
- `analyzeMoodWithAI` (the Express server's AI analysis) is an oracle `string -> Result<MoodAnalysis, string>`; its prompt and parsing are library calls.
- Logging (`console.log` / `console.error`) and the Express/Vite/static-file plumbing are left out; only the log line's content is modelled.
- Concurrency is not modelled. The token cache is single-threaded state. The Next.js routes share one `spotifyApi` client whose access token each request overwrites; interleaved requests are not modelled.
- User interface components and canvas animations are outside the pipeline.
- Strings are sequences of Unicode scalar values; JavaScript counts UTF-16 code units. Lengths (the 50-character name cut, the 3..500 mood bounds, the 80-character log line) agree for text without astral-plane characters only.
- Text.ToLower: lower-cases ASCII `A`-`Z` only, where `toLowerCase` maps all of Unicode; the keyword table and demo words are ASCII, so only non-ASCII letters in moods differ.
- JSON values that are not strings are not modelled where strings are expected: AI array items of other types, non-string `name`/`description`/`trackIds` elements and a non-array `trackIds` in the create request, and non-string catalogue fields.
- Thrown values that are not `Error` objects are not modelled; every failure carries a message string.
- ServerSearch.Wrapped: renders every rethrown error as "Error: " followed by its message, which is how `${error}` prints an `Error`; errors of other classes (a fetch `TypeError`) print under their own name.
- The real-valued `energy` has no NaN; a NaN energy is "low" in the source as well, but NaN is not modelled.
- ServerRoutes.EnergyLabel: `energy` is read as the decimal number JavaScript prints for the double, and is compared exactly against 0.7 and 0.4. The double nearest 0.4 lies slightly above 0.4; the source compares it against the same double literal, so it gets "low" there too. A computed energy that differs from 0.4 or 0.7 only in the last bits may be labelled differently than the model says.
- Catalog.AcceptPage and ServerSearch.WithPreview assume every item the source's field mapping reads has the shape the Spotify Web API documents: the item is an object (the Express preview filter reads every item, `null` included), `artists` is an array, and `album`, `album.images` and `external_urls` are present. The source throws a TypeError on an item that breaks this, and the model cannot express such an item. In the Next.js routes that means a usable item whose album has no `images`, or whose truthy `artists` is not an array. In `searchTracks` (generate-playlist/route.ts:151-166) the per-term `catch` keeps the tracks already taken from that page and loses the rest of it. In `searchTracksByIds` (create-playlist/route.ts:63-86) the outer `catch` answers `[]` although every lookup succeeded. In the Express `searchSpotifyTracks` (spotify.ts:99-110) a `null` item, or one without `album`, `album.images`, `artists` or `external_urls`, is rethrown as "Failed to search Spotify: …" and `routes.ts` answers 500.
- Negative durations, image sizes and other catalogue fields the pipeline only copies are not constrained.
- Ids made from `Date.now()` are modelled as the prefix followed by the decimal rendering of a natural-number stamp.

Behaviour worth knowing, modelled as the code does it:

- The generate route wraps `interpretMoodWithAI` in a `try` that sets `usingFallbackAI`, but that function catches all its own errors (for thrown `Error`s; see Left out), so the flag is never set and the "keyword extraction" description never appears (`GeneratePlaylist.FallbackFlagNeverSet`).
- The usability filter tests `track.artists` for truthiness; an empty artist array is truthy, so a track with no artists is kept with an empty artist string.
- `searchTracksByIds` is all-or-nothing: one failed lookup empties the whole answer (`Lookup.AnyFailureGivesNothing`).
- The Next.js routes do not cache the app token; each request asks the client-credentials grant again (`Config.AppAccessToken`). Only the Express server caches.
- A real playlist can be created on the user's account and still be reported as a demo when a later step fails (`CreatePlaylist.CreatedButReportedAsDemo`). A fallback demo playlist may have no tracks; that path never answers 404.
- The Express route serves a playlist with no tracks when the search finds none with a preview; there is no 404 there.

=== FILE: batching.dfy ===
/** Splitting a list into request-sized batches, as the loops
    `for (let i = 0; i < xs.length; i += size) chunks.push(xs.slice(i, i + size))`
    do for the 50-id track lookup and the 100-URI add-tracks call. */
module Batching {

  function Min(a: int, b: int): int {
    if a < b then a else b
  }

  /** The batches `xs.slice(0, size)`, `xs.slice(size, 2 * size)`, ... */
  function Chunks<T>(xs: seq<T>, size: nat): seq<seq<T>>
    requires size > 0
    decreases |xs|
  {
    if |xs| == 0 then []
    else
      var n := Min(size, |xs|);
      [xs[..n]] + Chunks(xs[n..], size)
  }

  function Flatten<T>(xss: seq<seq<T>>): seq<T>
    decreases |xss|
  {
    if |xss| == 0 then [] else xss[0] + Flatten(xss[1..])
  }

  lemma {:induction false} FlattenAppend<T>(a: seq<seq<T>>, b: seq<seq<T>>)
    ensures Flatten(a + b) == Flatten(a) + Flatten(b)
    decreases |a|
  {
    if |a| == 0 {
      assert a + b == b;
    } else {
      assert (a + b)[1..] == a[1..] + b;
      FlattenAppend(a[1..], b);
    }
  }

  /** The batches put back together are the original list, in order. */
  lemma {:induction false} ChunksFlatten<T>(xs: seq<T>, size: nat)
    requires size > 0
    ensures Flatten(Chunks(xs, size)) == xs
    decreases |xs|
  {
    if |xs| > 0 {
      var n := Min(size, |xs|);
      ChunksFlatten(xs[n..], size);
      assert xs[..n] + xs[n..] == xs;
    }
  }

  /** Every batch is non-empty and holds at most `size` elements; every
      batch but the last holds exactly `size`. */
  lemma {:induction false} ChunksBounded<T>(xs: seq<T>, size: nat)
    requires size > 0
    ensures forall k :: 0 <= k < |Chunks(xs, size)| ==> 0 < |Chunks(xs, size)[k]| <= size
    ensures forall k :: 0 <= k < |Chunks(xs, size)| - 1 ==> |Chunks(xs, size)[k]| == size
    decreases |xs|
  {
    if |xs| > 0 {
      var n := Min(size, |xs|);
      ChunksBounded(xs[n..], size);
      var cs := Chunks(xs, size);
      assert cs == [xs[..n]] + Chunks(xs[n..], size);
      if |cs| > 1 {
        assert |xs[n..]| > 0;
        assert n == size;
      }
    }
  }

  /** There are ceil(|xs| / size) batches: the fewest batches of `size`
      that can hold the whole list. */
  lemma {:induction false} ChunksCount<T>(xs: seq<T>, size: nat)
    requires size > 0
    ensures |xs| <= |Chunks(xs, size)| * size
    ensures |xs| > 0 ==> (|Chunks(xs, size)| - 1) * size < |xs|
    ensures |xs| == 0 ==> |Chunks(xs, size)| == 0
    decreases |xs|
  {
    if |xs| > 0 {
      var n := Min(size, |xs|);
      var k := |Chunks(xs[n..], size)|;
      ChunksCount(xs[n..], size);
      assert |Chunks(xs, size)| == k + 1;
      assert (k + 1) * size == k * size + size;
    }
  }

  /** Where batch `k` starts: `k` steps of `size`. */
  function Offset(k: nat, size: nat): nat {
    if k == 0 then 0 else Offset(k - 1, size) + size
  }

  lemma {:induction false} OffsetIsProduct(k: nat, size: nat)
    ensures Offset(k, size) == k * size
  {
    if k > 0 {
      OffsetIsProduct(k - 1, size);
      assert (k - 1) * size + size == k * size;
    }
  }

  /** Batch `k` starts `k` steps in and runs for one step, cut short at the end. */
  lemma {:induction false} ChunkFrom<T>(xs: seq<T>, size: nat, k: nat)
    requires size > 0
    requires k < |Chunks(xs, size)|
    ensures Offset(k, size) < |xs|
    ensures Chunks(xs, size)[k] == xs[Offset(k, size)..Min(Offset(k, size) + size, |xs|)]
    decreases |xs|
  {
    var n := Min(size, |xs|);
    if k > 0 {
      var tail := xs[n..];
      assert Chunks(xs, size)[k] == Chunks(tail, size)[k - 1];
      ChunkFrom(tail, size, k - 1);
      assert n == size;
      var lo := Offset(k - 1, size);
      SliceOfSuffix(xs, n, lo, Min(lo + size, |tail|));
    }
  }

  lemma SliceOfSuffix<T>(xs: seq<T>, n: nat, lo: nat, hi: nat)
    requires n <= |xs| && lo <= hi <= |xs| - n
    ensures xs[n..][lo..hi] == xs[n + lo..n + hi]
  {
  }

  /** Batch `k` is exactly `xs.slice(k * size, (k + 1) * size)`. */
  lemma ChunkAt<T>(xs: seq<T>, size: nat, k: nat)
    requires size > 0
    requires k < |Chunks(xs, size)|
    ensures k * size < |xs|
    ensures Chunks(xs, size)[k] == xs[k * size..Min((k + 1) * size, |xs|)]
  {
    ChunkFrom(xs, size, k);
    OffsetIsProduct(k, size);
    assert (k + 1) * size == k * size + size;
  }

  /** One step of the batching loop at offset `i`: the batch `xs[i..i+size]`
      (cut short at the end), then the batches of what follows it. */
  lemma ChunksFrom<T>(xs: seq<T>, size: nat, i: nat)
    requires size > 0 && i < |xs|
    ensures Chunks(xs[i..], size) == [xs[i..Min(i + size, |xs|)]] + Chunks(xs[Min(i + size, |xs|)..], size)
  {
    var rest := xs[i..];
    var n := Min(size, |rest|);
    assert rest[..n] == xs[i..Min(i + size, |xs|)];
    assert rest[n..] == xs[Min(i + size, |xs|)..];
  }

  /** The batching loop itself, stepping an offset by `size`; it builds
      exactly the batches `Chunks` describes. */
  method SplitIntoChunks<T>(xs: seq<T>, size: nat) returns (chunks: seq<seq<T>>)
    requires size > 0
    ensures chunks == Chunks(xs, size)
  {
    chunks := [];
    var i: nat := 0;
    assert xs[0..] == xs;
    while i < |xs|
      invariant chunks + Chunks(xs[Min(i, |xs|)..], size) == Chunks(xs, size)
      decreases |xs| - i
    {
      ChunksFrom(xs, size, i);
      chunks := chunks + [xs[i..Min(i + size, |xs|)]];
      i := i + size;
    }
  }
}

=== FILE: catalog.dfy ===
/** Catalog items as the Next.js routes receive them from the search and
    track-lookup endpoints, and their conversion into the routes' `Track`
    record. Both routes use the same required-field filter and the same
    field mapping. */
module Catalog {
  import opened Wrappers
  import opened Text
  import opened Config

  datatype RawAlbum = RawAlbum(name: string, imageUrls: seq<string>)

  /** One catalog item. Optional fields are the ones the routes test for
      truthiness or read with `?.` / `|| ''`. */
  datatype RawTrack = RawTrack(
    id: Option<string>,
    name: Option<string>,
    artists: Option<seq<string>>,
    album: Option<RawAlbum>,
    previewUrl: Option<string>,
    spotifyUrl: Option<string>)

  /** A page of results; an entry may be `null` (an unknown id in a lookup). */
  type Page = seq<Option<RawTrack>>

  datatype Track = Track(
    id: string,
    name: string,
    artist: string,
    album: string,
    imageUrl: string,
    previewUrl: Option<string>,
    externalUrl: string)

  /** `track && track.id && track.name && track.artists && track.album`.
      An empty artist array is truthy, so it passes. */
  predicate Usable(item: Option<RawTrack>) {
    && item.Some?
    && Truthy(item.value.id)
    && Truthy(item.value.name)
    && item.value.artists.Some?
    && item.value.album.Some?
  }

  /** The field mapping of both routes. */
  function ToTrack(t: RawTrack): (r: Track)
    requires Usable(Some(t))
    ensures r.id == t.id.value && r.id != ""
    ensures r.name == t.name.value && r.name != ""
    ensures r.artist == Join(t.artists.value, ", ")
    ensures r.album == t.album.value.name
    ensures r.imageUrl == if |t.album.value.imageUrls| > 0 then t.album.value.imageUrls[0] else ""
    ensures r.previewUrl == t.previewUrl
    ensures r.externalUrl == t.spotifyUrl.GetOr("")
  {
    Track(
      t.id.value,
      t.name.value,
      Join(t.artists.value, ", "),
      t.album.value.name,
      if |t.album.value.imageUrls| > 0 then t.album.value.imageUrls[0] else "",
      t.previewUrl,
      t.spotifyUrl.GetOr(""))
  }

  /** The tracks one page contributes: the usable items, converted, in page order. */
  function AcceptPage(items: Page): (r: seq<Track>)
    ensures |r| <= |items|
    ensures forall k :: 0 <= k < |r| ==> r[k].id != "" && r[k].name != ""
    ensures forall k :: 0 <= k < |r| ==> FromPage(r[k], items)
    ensures (forall i :: 0 <= i < |items| ==> Usable(items[i])) ==> |r| == |items|
    ensures (forall i :: 0 <= i < |items| ==> !Usable(items[i])) ==> r == []
    decreases |items|
  {
    if |items| == 0 then []
    else
      var rest := AcceptPage(items[1..]);
      assert forall k :: 0 <= k < |rest| ==> FromPage(rest[k], items) by {
        forall k | 0 <= k < |rest| {
          FromTail(rest[k], items);
        }
      }
      if Usable(items[0]) then [ToTrack(items[0].value)] + rest else rest
  }

  /** `t` is the conversion of some usable item of `items`. */
  predicate FromPage(t: Track, items: Page) {
    exists i :: 0 <= i < |items| && Usable(items[i]) && t == ToTrack(items[i].value)
  }

  /** A track converted from an item of the tail `items[1..]` was converted
      from an item of `items`. */
  lemma FromTail(t: Track, items: Page)
    requires |items| > 0 && FromPage(t, items[1..])
    ensures FromPage(t, items)
  {
    var i :| 0 <= i < |items[1..]| && Usable(items[1..][i]) && t == ToTrack(items[1..][i].value);
    assert items[i + 1] == items[1..][i];
  }

  /** A page contributes nothing exactly when none of its items is usable. */
  lemma {:induction false} AcceptPageEmpty(items: Page)
    ensures AcceptPage(items) == [] <==> forall i :: 0 <= i < |items| ==> !Usable(items[i])
    decreases |items|
  {
    if |items| > 0 {
      AcceptPageEmpty(items[1..]);
      assert forall i :: 1 <= i < |items| ==> items[i] == items[1..][i - 1];
    }
  }

  /** Pages can be accepted one at a time: acceptance distributes over concatenation. */
  lemma {:induction false} AcceptPageAppend(a: Page, b: Page)
    ensures AcceptPage(a + b) == AcceptPage(a) + AcceptPage(b)
    decreases |a|
  {
    if |a| == 0 {
      assert a + b == b;
    } else {
      assert (a + b)[1..] == a[1..] + b;
      AcceptPageAppend(a[1..], b);
    }
  }
}

=== FILE: config.dfy ===
/** Process configuration and the app-level credential of the Next.js routes.

    Environment variables are `Option<string>`: `None` is an unset variable.
    JavaScript treats both an unset variable and the empty string as falsy,
    which `Truthy` captures. */
module Config {
  import opened Wrappers

  datatype Env = Env(
    spotifyClientId: Option<string>,
    spotifyClientSecret: Option<string>,
    geminiApiKey: Option<string>)

  /** JavaScript truthiness of an optional string. */
  predicate Truthy(o: Option<string>) {
    o.Some? && o.value != ""
  }

  predicate HasSpotifyCredentials(env: Env) {
    Truthy(env.spotifyClientId) && Truthy(env.spotifyClientSecret)
  }

  /** `getSpotifyAccessToken` of the Next.js routes. `grant` is what the
      client-credentials grant returned (`None`: it rejected). There is no
      cache here: every call of the route consults the grant afresh. */
  function AppAccessToken(env: Env, grant: Option<string>): (r: Option<string>)
    ensures r.Some? <==> HasSpotifyCredentials(env) && grant.Some?
    ensures r.Some? ==> r == grant
  {
    if !HasSpotifyCredentials(env) then None else grant
  }
}

=== FILE: create_playlist.dfy ===
/** `POST /api/create-playlist` of the Next.js app: validate the request;
    without a user token, build a demo playlist from looked-up tracks; with
    one, create a real playlist, add the tracks in batches of 100 URIs and
    read it back, falling back to a demo playlist when any step fails. */
module CreatePlaylist {
  import opened Wrappers
  import opened Text
  import opened Config
  import opened Http
  import opened Batching
  import opened Catalog
  import opened Lookup

  /** The add-tracks endpoint accepts at most this many URIs per call. */
  const AddBatch: nat := 100
  const TrackUriPrefix: string := "spotify:track:"
  const SearchUrlBase: string := "https://open.spotify.com/search/"
  const DemoModeSuffix: string := " (Demo mode - Connect Spotify to create real playlist)"
  const CreationFailedSuffix: string := " (Creation failed - showing demo)"

  /** The parsed request body; a field the client left out is `None`. */
  datatype CreateFields = CreateFields(
    name: Option<string>,
    description: Option<string>,
    trackIds: Option<seq<string>>,
    accessToken: Option<string>)

  /** `request.json()` threw, or the body's fields. */
  datatype CreateBody = Unreadable | Fields(fields: CreateFields)

  datatype NewPlaylist = NewPlaylist(userId: string, name: string, description: string, isPublic: bool, collaborative: bool)
  datatype AddTracksRequest = AddTracksRequest(playlistId: string, uris: seq<string>)
  datatype PlaylistDetails = PlaylistDetails(name: string, description: Option<string>, spotifyUrl: Option<string>)

  /** The user-token endpoints. Each answer is `None` (or `false`) when
      the call threw. */
  datatype UserApi = UserApi(
    profileId: Option<string>,
    createPlaylist: NewPlaylist -> Option<string>,
    addTracks: AddTracksRequest -> bool,
    getPlaylist: string -> Option<PlaylistDetails>)

  /** A call made with the user's token, in the order made. */
  datatype UserCall = GetMe | Create(newPlaylist: NewPlaylist) | AddTracks(batch: AddTracksRequest) | GetPlaylist(playlistId: string)

  datatype CreatedPlaylist = CreatedPlaylist(
    id: string,
    name: string,
    description: string,
    tracks: seq<Track>,
    externalUrl: string,
    isRealPlaylist: bool)

  /** The route's answers. */
  datatype CreateResponse =
    | MissingFields
    | DemoAuthFailed
    | NoValidTracks
    | FallbackAuthFailed
    | CreateFailed
    | Created(playlist: CreatedPlaylist)

  function Status(r: CreateResponse): nat {
    match r
    case MissingFields => StatusBadRequest
    case NoValidTracks => StatusNotFound
    case Created(_) => StatusOk
    case _ => StatusServerError
  }

  /** What the route did: its answer, the user-token calls and the track
      lookups, each in order. */
  datatype CreateRun = CreateRun(response: CreateResponse, userCalls: seq<UserCall>, lookups: seq<LookupRequest>)

  // ---------------------------------------------------------------------
  // Track URIs and the add-tracks batches

  function TrackUri(id: string): string {
    TrackUriPrefix + id
  }

  /** The id a track URI names; the inverse of `TrackUri`. */
  function UriId(uri: string): (r: Option<string>)
    ensures r.Some? <==> IsPrefix(TrackUriPrefix, uri)
  {
    if IsPrefix(TrackUriPrefix, uri) then Some(uri[|TrackUriPrefix|..]) else None
  }

  lemma UriRoundTrip(id: string)
    ensures UriId(TrackUri(id)) == Some(id)
  {
    assert TrackUri(id)[..|TrackUriPrefix|] == TrackUriPrefix;
  }

  /** `trackIds.map(id => `spotify:track:${id}`)`. */
  function TrackUris(ids: seq<string>): (r: seq<string>)
    ensures |r| == |ids|
    ensures forall i :: 0 <= i < |ids| ==> r[i] == TrackUri(ids[i])
  {
    seq(|ids|, i requires 0 <= i < |ids| => TrackUri(ids[i]))
  }

  /** Every URI gives back the id it was made from, in order. */
  lemma TrackUrisRecoverIds(ids: seq<string>)
    ensures forall i :: 0 <= i < |ids| ==> UriId(TrackUris(ids)[i]) == Some(ids[i])
  {
    forall i | 0 <= i < |ids|
      ensures UriId(TrackUris(ids)[i]) == Some(ids[i])
    {
      UriRoundTrip(ids[i]);
    }
  }

  /** The add-tracks calls made for the batches: one per batch, in order,
      up to and including the first that fails. */
  function AddCalls(playlistId: string, batches: seq<seq<string>>, addTracks: AddTracksRequest -> bool): seq<AddTracksRequest>
    decreases |batches|
  {
    if |batches| == 0 then []
    else
      var request := AddTracksRequest(playlistId, batches[0]);
      [request] + (if addTracks(request) then AddCalls(playlistId, batches[1..], addTracks) else [])
  }

  predicate AllAdded(playlistId: string, batches: seq<seq<string>>, addTracks: AddTracksRequest -> bool) {
    forall k :: 0 <= k < |batches| ==> addTracks(AddTracksRequest(playlistId, batches[k]))
  }

  /** When every add succeeds there is one call per batch, in batch order. */
  lemma {:induction false} AddCallsWhenAllAdded(playlistId: string, batches: seq<seq<string>>, addTracks: AddTracksRequest -> bool)
    requires AllAdded(playlistId, batches, addTracks)
    ensures |AddCalls(playlistId, batches, addTracks)| == |batches|
    ensures forall k :: 0 <= k < |batches| ==> AddCalls(playlistId, batches, addTracks)[k] == AddTracksRequest(playlistId, batches[k])
    decreases |batches|
  {
    if |batches| > 0 {
      assert AllAdded(playlistId, batches[1..], addTracks) by {
        forall k | 0 <= k < |batches[1..]|
          ensures addTracks(AddTracksRequest(playlistId, batches[1..][k]))
        {
          assert batches[1..][k] == batches[k + 1];
        }
      }
      AddCallsWhenAllAdded(playlistId, batches[1..], addTracks);
    }
  }

  /** The URIs of each add-tracks call, in call order. */
  function AddedUris(calls: seq<AddTracksRequest>): (r: seq<seq<string>>)
    ensures |r| == |calls|
    ensures forall k :: 0 <= k < |r| ==> r[k] == calls[k].uris
  {
    seq(|calls|, k requires 0 <= k < |calls| => calls[k].uris)
  }

  /** The add-tracks calls for `ids` when every one succeeds: ceil(n / 100)
      calls to the same playlist, at most 100 URIs each and exactly 100 in
      all but the last, which together send every id's URI once, in order. */
  lemma AddTracksBatches(playlistId: string, ids: seq<string>, addTracks: AddTracksRequest -> bool)
    requires AllAdded(playlistId, Chunks(TrackUris(ids), AddBatch), addTracks)
    ensures var calls := AddCalls(playlistId, Chunks(TrackUris(ids), AddBatch), addTracks);
      && |calls| == (|ids| + AddBatch - 1) / AddBatch
      && (forall k :: 0 <= k < |calls| ==> calls[k].playlistId == playlistId)
      && (forall k :: 0 <= k < |calls| ==> 0 < |calls[k].uris| <= AddBatch)
      && (forall k :: 0 <= k < |calls| - 1 ==> |calls[k].uris| == AddBatch)
      && Flatten(AddedUris(calls)) == TrackUris(ids)
  {
    var uris := TrackUris(ids);
    var batches := Chunks(uris, AddBatch);
    var calls := AddCalls(playlistId, batches, addTracks);
    AddCallsWhenAllAdded(playlistId, batches, addTracks);
    ChunksBounded(uris, AddBatch);
    ChunksCount(uris, AddBatch);
    ChunksFlatten(uris, AddBatch);
    assert AddedUris(calls) == batches;
  }

  // ---------------------------------------------------------------------
  // The real attempt

  /** The playlist made and read back by a successful real attempt. */
  datatype RealPlaylist = RealPlaylist(playlistId: string, details: PlaylistDetails)

  datatype Attempt = Attempt(calls: seq<UserCall>, outcome: Option<RealPlaylist>)

  function AddTracksCalls(requests: seq<AddTracksRequest>): (r: seq<UserCall>)
    ensures |r| == |requests|
    ensures forall k :: 0 <= k < |r| ==> r[k] == AddTracks(requests[k])
  {
    seq(|requests|, k requires 0 <= k < |requests| => AddTracks(requests[k]))
  }

  /** The `try` block of the real path up to the track lookup: profile,
      create, add in batches, read back. Any throw ends it with no outcome. */
  function RealAttempt(name: string, description: string, ids: seq<string>, api: UserApi): Attempt {
    if !Truthy(api.profileId) then Attempt([GetMe], None)
    else
      var request := NewPlaylist(api.profileId.value, name, description, false, false);
      match api.createPlaylist(request)
      case None => Attempt([GetMe, Create(request)], None)
      case Some(playlistId) =>
        var batches := Chunks(TrackUris(ids), AddBatch);
        var made := [GetMe, Create(request)] + AddTracksCalls(AddCalls(playlistId, batches, api.addTracks));
        if !AllAdded(playlistId, batches, api.addTracks) then Attempt(made, None)
        else match api.getPlaylist(playlistId)
          case None => Attempt(made + [GetPlaylist(playlistId)], None)
          case Some(details) => Attempt(made + [GetPlaylist(playlistId)], Some(RealPlaylist(playlistId, details)))
  }

  /** The attempt succeeds exactly when the profile has an id, the
      playlist is created, every batch is added and the playlist is read
      back; it is always private and not collaborative. */
  lemma RealAttemptSucceeds(name: string, description: string, ids: seq<string>, api: UserApi)
    ensures var a := RealAttempt(name, description, ids, api);
      var request := NewPlaylist(api.profileId.GetOr(""), name, description, false, false);
      && (a.outcome.Some? <==>
            && Truthy(api.profileId)
            && api.createPlaylist(request).Some?
            && AllAdded(api.createPlaylist(request).value, Chunks(TrackUris(ids), AddBatch), api.addTracks)
            && api.getPlaylist(api.createPlaylist(request).value).Some?)
      && (a.outcome.Some? ==> a.outcome.value.playlistId == api.createPlaylist(request).value)
      && (Truthy(api.profileId) ==> |a.calls| >= 2 && a.calls[1] == Create(request))
  {
  }

  // ---------------------------------------------------------------------
  // The route

  /** The fields the route needs are all present: `name`, `description`
      and a non-empty `trackIds`. */
  predicate Complete(f: CreateFields) {
    Truthy(f.name) && Truthy(f.description) && f.trackIds.Some? && |f.trackIds.value| > 0
  }

  function DemoOf(name: string, description: string, suffix: string, tracks: seq<Track>, stamp: nat, encode: string -> string): CreatedPlaylist {
    CreatedPlaylist("demo-" + Decimal(stamp), "Demo: " + name, description + suffix, tracks, SearchUrlBase + encode(name), false)
  }

  /** `POST(request)`. `grant` is the app client-credentials grant's
      answer, `api` the user-token endpoints, `lookup` the track lookup,
      `stamp` the clock and `encode` is `encodeURIComponent`. */
  function Post(body: CreateBody, env: Env, grant: Option<string>, api: UserApi, lookup: LookupApi,
                stamp: nat, encode: string -> string): CreateRun
  {
    match body
    case Unreadable => CreateRun(CreateFailed, [], [])
    case Fields(f) =>
      if !Complete(f) then CreateRun(MissingFields, [], [])
      else
        var name, description, ids := f.name.value, f.description.value, f.trackIds.value;
        if !Truthy(f.accessToken) then
          match AppAccessToken(env, grant)
          case None => CreateRun(DemoAuthFailed, [], [])
          case Some(appToken) =>
            var found := SearchTracksByIds(ids, appToken, lookup);
            if |found.tracks| == 0 then CreateRun(NoValidTracks, [], found.requests)
            else CreateRun(Created(DemoOf(name, description, DemoModeSuffix, found.tracks, stamp, encode)), [], found.requests)
        else
          var attempt := RealAttempt(name, description, ids, api);
          match attempt.outcome
          case Some(made) =>
            var found := SearchTracksByIds(ids, f.accessToken.value, lookup);
            var playlist := CreatedPlaylist(made.playlistId, made.details.name, made.details.description.GetOr(""),
                                            found.tracks, made.details.spotifyUrl.GetOr(""), true);
            CreateRun(Created(playlist), attempt.calls, found.requests)
          case None =>
            match AppAccessToken(env, grant)
            case None => CreateRun(FallbackAuthFailed, attempt.calls, [])
            case Some(appToken) =>
              var found := SearchTracksByIds(ids, appToken, lookup);
              CreateRun(Created(DemoOf(name, description, CreationFailedSuffix, found.tracks, stamp, encode)), attempt.calls, found.requests)
  }

  /** A request missing a field is a 400 and touches no endpoint. */
  lemma MissingFieldsRejected(body: CreateBody, env: Env, grant: Option<string>, api: UserApi, lookup: LookupApi,
                              stamp: nat, encode: string -> string)
    requires body.Fields?
    ensures var run := Post(body, env, grant, api, lookup, stamp, encode);
      && (run.response == MissingFields <==> !Complete(body.fields))
      && (!Complete(body.fields) ==> run.userCalls == [] && run.lookups == [])
  {
  }

  /** Without a user token: 500 when the app token cannot be had, 404 when
      no track is found, otherwise a demo playlist of the found tracks named
      "Demo: " + name with the demo-mode note; no user-token call is made. */
  lemma DemoPathOutcomes(f: CreateFields, env: Env, grant: Option<string>, api: UserApi, lookup: LookupApi,
                         stamp: nat, encode: string -> string)
    requires Complete(f) && !Truthy(f.accessToken)
    ensures var run := Post(Fields(f), env, grant, api, lookup, stamp, encode);
      && run.userCalls == []
      && (run.response == DemoAuthFailed <==> AppAccessToken(env, grant).None?)
      && (AppAccessToken(env, grant).Some? ==>
            var found := SearchTracksByIds(f.trackIds.value, AppAccessToken(env, grant).value, lookup);
            && run.lookups == found.requests
            && (run.response == NoValidTracks <==> found.tracks == [])
            && (found.tracks != [] ==>
                  && run.response.Created?
                  && !run.response.playlist.isRealPlaylist
                  && run.response.playlist.name == "Demo: " + f.name.value
                  && run.response.playlist.description == f.description.value + DemoModeSuffix
                  && run.response.playlist.tracks == found.tracks))
  {
  }

  /** With a user token: a successful attempt gives the real playlist, its
      tracks looked up with the user's token; a failed one gives a demo
      playlist with the creation-failed note (possibly with no tracks, never
      a 404), or a 500 when the fallback app token cannot be had either. */
  lemma RealPathOutcomes(f: CreateFields, env: Env, grant: Option<string>, api: UserApi, lookup: LookupApi,
                         stamp: nat, encode: string -> string)
    requires Complete(f) && Truthy(f.accessToken)
    ensures var run := Post(Fields(f), env, grant, api, lookup, stamp, encode);
      var attempt := RealAttempt(f.name.value, f.description.value, f.trackIds.value, api);
      && run.userCalls == attempt.calls
      && run.response != NoValidTracks
      && (attempt.outcome.Some? ==>
            && run.response.Created? && run.response.playlist.isRealPlaylist
            && run.response.playlist.id == attempt.outcome.value.playlistId
            && run.response.playlist.name == attempt.outcome.value.details.name
            && run.response.playlist.description == attempt.outcome.value.details.description.GetOr("")
            && run.response.playlist.externalUrl == attempt.outcome.value.details.spotifyUrl.GetOr("")
            && run.lookups == SearchTracksByIds(f.trackIds.value, f.accessToken.value, lookup).requests
            && run.response.playlist.tracks == SearchTracksByIds(f.trackIds.value, f.accessToken.value, lookup).tracks)
      && (attempt.outcome.None? ==>
            && (run.response == FallbackAuthFailed <==> AppAccessToken(env, grant).None?)
            && (AppAccessToken(env, grant).Some? ==>
                  var found := SearchTracksByIds(f.trackIds.value, AppAccessToken(env, grant).value, lookup);
                  && run.lookups == found.requests
                  && run.response.Created?
                  && !run.response.playlist.isRealPlaylist
                  && run.response.playlist.name == "Demo: " + f.name.value
                  && run.response.playlist.description == f.description.value + CreationFailedSuffix
                  && run.response.playlist.tracks == found.tracks))
  {
  }

  /** The flag is true exactly on a successful real attempt. */
  lemma RealFlagMeansCreated(body: CreateBody, env: Env, grant: Option<string>, api: UserApi, lookup: LookupApi,
                             stamp: nat, encode: string -> string)
    ensures var run := Post(body, env, grant, api, lookup, stamp, encode);
      run.response.Created? && run.response.playlist.isRealPlaylist <==>
        && body.Fields? && Complete(body.fields) && Truthy(body.fields.accessToken)
        && RealAttempt(body.fields.name.value, body.fields.description.value, body.fields.trackIds.value, api).outcome.Some?
  {
  }

  /** A playlist can be created on the account and still be reported as a
      demo: when a later add-tracks call fails, the created playlist stays
      behind, but the answer is the fallback. */
  lemma CreatedButReportedAsDemo(f: CreateFields, env: Env, grant: Option<string>, api: UserApi, lookup: LookupApi,
                                 stamp: nat, encode: string -> string)
    requires Complete(f) && Truthy(f.accessToken) && Truthy(api.profileId)
    requires var request := NewPlaylist(api.profileId.value, f.name.value, f.description.value, false, false);
      && api.createPlaylist(request).Some?
      && !AllAdded(api.createPlaylist(request).value, Chunks(TrackUris(f.trackIds.value), AddBatch), api.addTracks)
    requires AppAccessToken(env, grant).Some?
    ensures var run := Post(Fields(f), env, grant, api, lookup, stamp, encode);
      && Create(NewPlaylist(api.profileId.value, f.name.value, f.description.value, false, false)) in run.userCalls
      && run.response.Created? && !run.response.playlist.isRealPlaylist
  {
    var request := NewPlaylist(api.profileId.value, f.name.value, f.description.value, false, false);
    var attempt := RealAttempt(f.name.value, f.description.value, f.trackIds.value, api);
    assert attempt.calls[1] == Create(request);
  }
}

=== FILE: generate_playlist.dfy ===
/** `POST /api/generate-playlist` of the Next.js app: validate the mood, get
    an app token (or fall back to a canned demo playlist), interpret the
    mood, search, and assemble the playlist. Every upstream answer, the
    clock and `encodeURIComponent` are parameters. */
module GeneratePlaylist {
  import opened Wrappers
  import opened Text
  import opened Config
  import opened Http
  import opened Catalog
  import opened Keywords
  import opened Interpreter
  import opened TermSearch

  /** The request body: reading the body or destructuring `mood` threw
      (with this message), or the `mood` field of the parsed body. */
  datatype GenerateBody = Unparsable(message: string) | Parsed(mood: MoodField)

  datatype Playlist = Playlist(id: string, name: string, description: string, tracks: seq<Track>, externalUrl: string)

  /** The route's answers. `AiNotice` is the 200 the outer catch gives for
      errors that mention the AI service; `ServerFailure` its 500. */
  datatype GenerateResponse =
    | MoodRequired
    | Demo(playlist: Playlist)
    | NoTracks
    | Generated(playlist: Playlist, usingFallbackAI: bool, geminiError: Option<string>)
    | AiNotice
    | ServerFailure

  function Status(r: GenerateResponse): nat {
    match r
    case MoodRequired => StatusBadRequest
    case NoTracks => StatusNotFound
    case ServerFailure => StatusServerError
    case _ => StatusOk
  }

  /** Everything the route consulted besides the body: the searches it
      issued (none on the demo and error paths). */
  datatype GenerateRun = GenerateRun(response: GenerateResponse, searches: seq<SearchRequest>)

  const NameLimit: nat := 50
  const Ellipsis: string := "..."
  const SearchUrlBase: string := "https://open.spotify.com/search/"
  const HomeUrl: string := "https://open.spotify.com/"

  /** `${prefix}${mood.substring(0, 50)}${mood.length > 50 ? '...' : ''}`. */
  function TruncatedName(prefix: string, mood: string): string {
    prefix + Prefix(mood, NameLimit) + (if |mood| > NameLimit then Ellipsis else "")
  }

  /** A mood of at most 50 characters is kept whole; a longer one is cut to
      50 and marked with "...", so the name never exceeds the prefix by
      more than 53 characters and the "..." appears exactly when it was cut. */
  lemma TruncatedNameShape(prefix: string, mood: string)
    ensures |mood| <= NameLimit ==> TruncatedName(prefix, mood) == prefix + mood
    ensures |mood| > NameLimit ==> TruncatedName(prefix, mood) == prefix + mood[..NameLimit] + Ellipsis
    ensures |TruncatedName(prefix, mood)| <= |prefix| + NameLimit + |Ellipsis|
    ensures IsPrefix(prefix, TruncatedName(prefix, mood))
  {
    var name := TruncatedName(prefix, mood);
    assert name == prefix + (Prefix(mood, NameLimit) + (if |mood| > NameLimit then Ellipsis else ""));
    assert name[..|prefix|] == prefix;
  }

  /** Long moods that agree on their first 50 characters get the same name. */
  lemma TruncatedNameReadsOnlyHead(prefix: string, a: string, b: string)
    requires |a| > NameLimit && |b| > NameLimit && a[..NameLimit] == b[..NameLimit]
    ensures TruncatedName(prefix, a) == TruncatedName(prefix, b)
  {
  }

  // ---------------------------------------------------------------------
  // The demo playlist

  /** Which canned list `generateDemoPlaylist` picks. */
  datatype DemoSet = HappySet | SadSet | EnergySet | DefaultSet

  predicate HappyMood(lowerMood: string) {
    Contains(lowerMood, "happy") || Contains(lowerMood, "joy") || Contains(lowerMood, "upbeat")
  }

  predicate SadMood(lowerMood: string) {
    Contains(lowerMood, "sad") || Contains(lowerMood, "melancholy")
  }

  predicate EnergyMood(lowerMood: string) {
    Contains(lowerMood, "energy") || Contains(lowerMood, "workout") || Contains(lowerMood, "gym")
  }

  /** The first branch of the chain whose words occur in the lower-cased mood. */
  function DemoSetFor(mood: string): DemoSet {
    var lower := ToLower(mood);
    if HappyMood(lower) then HappySet
    else if SadMood(lower) then SadSet
    else if EnergyMood(lower) then EnergySet
    else DefaultSet
  }

  /** The priority order of the chain, each case as an if-and-only-if. */
  lemma DemoSetPriority(mood: string)
    ensures var lower := ToLower(mood);
      && (DemoSetFor(mood) == HappySet <==> HappyMood(lower))
      && (DemoSetFor(mood) == SadSet <==> !HappyMood(lower) && SadMood(lower))
      && (DemoSetFor(mood) == EnergySet <==> !HappyMood(lower) && !SadMood(lower) && EnergyMood(lower))
      && (DemoSetFor(mood) == DefaultSet <==> !HappyMood(lower) && !SadMood(lower) && !EnergyMood(lower))
  {
  }

  /** The choice ignores case. */
  lemma DemoSetIgnoresCase(a: string, b: string)
    requires ToLower(a) == ToLower(b)
    ensures DemoSetFor(a) == DemoSetFor(b)
  {
  }

  /** A canned list: not empty, and no track in it has a preview. */
  type DemoList = ts: seq<Track> | |ts| > 0 && forall k :: 0 <= k < |ts| ==> ts[k].previewUrl.None?
    witness [Track("", "", "", "", "", None, "")]

  function DemoTrack(id: string, name: string, artist: string, album: string, imageUrl: string, externalUrl: string): (t: Track)
    ensures t.previewUrl.None?
  {
    Track(id, name, artist, album, imageUrl, None, externalUrl)
  }

  function HappyTracks(): DemoList {
    [DemoTrack("demo-happy-1", "Happy", "Pharrell Williams", "G I R L",
       "https://via.placeholder.com/300x300/FFD700/000000?text=Happy",
       "https://open.spotify.com/track/6bZBe1Ld7qL1e8Mq7sG6g3"),
     DemoTrack("demo-happy-2", "Can't Stop the Feeling", "Justin Timberlake", "Trolls: Original Motion Picture Soundtrack",
       "https://via.placeholder.com/300x300/FF6B6B/FFFFFF?text=Feeling",
       "https://open.spotify.com/track/1KS2lUqL1O9XcXV4y2y5x1")]
  }

  function SadTracks(): DemoList {
    [DemoTrack("demo-sad-1", "Someone Like You", "Adele", "21",
       "https://via.placeholder.com/300x300/4A90E2/FFFFFF?text=Sad",
       "https://open.spotify.com/track/0liO22Dlh19k1dW2kcMlyD")]
  }

  function EnergyTracks(): DemoList {
    [DemoTrack("demo-energy-1", "Eye of the Tiger", "Survivor", "Eye of the Tiger",
       "https://via.placeholder.com/300x300/FF4444/FFFFFF?text=Tiger",
       "https://open.spotify.com/track/4bHsxqR3GMrXTxEPLuK5ue"),
     DemoTrack("demo-energy-2", "Stronger", "Kanye West", "Graduation",
       "https://via.placeholder.com/300x300/8B5CF6/FFFFFF?text=Stronger",
       "https://open.spotify.com/track/0Pcu7NpaubYqtA6y9wVwOr")]
  }

  function DefaultTracks(): DemoList {
    [DemoTrack("demo-default-1", "Demo Track 1", "Demo Artist", "Demo Album",
       "https://via.placeholder.com/300x300/666666/FFFFFF?text=Demo",
       "https://open.spotify.com/")]
  }

  /** The canned tracks of each list. */
  function DemoTracks(s: DemoSet): DemoList {
    match s
    case HappySet => HappyTracks()
    case SadSet => SadTracks()
    case EnergySet => EnergyTracks()
    case DefaultSet => DefaultTracks()
  }

  /** Whatever the mood, the demo playlist has tracks, and none of them can
      be previewed. */
  lemma DemoTracksSilent(mood: string, stamp: nat)
    ensures |DemoPlaylist(mood, stamp).tracks| > 0
    ensures forall k :: 0 <= k < |DemoPlaylist(mood, stamp).tracks| ==> DemoPlaylist(mood, stamp).tracks[k].previewUrl.None?
  {
  }

  /** `generateDemoPlaylist(mood)`, with `stamp` the `Date.now()` of its id. */
  function DemoPlaylist(mood: string, stamp: nat): (p: Playlist)
    ensures |p.tracks| > 0
    ensures p.tracks == DemoTracks(DemoSetFor(mood))
    ensures p.name == TruncatedName("Demo: ", mood)
  {
    Playlist("demo-" + Decimal(stamp), TruncatedName("Demo: ", mood),
      "Demo playlist based on: \"" + mood + "\" (Configure APIs for real tracks)",
      DemoTracks(DemoSetFor(mood)), HomeUrl)
  }

  // ---------------------------------------------------------------------
  // The route

  /** The words the outer catch looks for in an error message. */
  predicate MentionsAiService(message: string) {
    Contains(message, "Gemini") || Contains(message, "quota") || Contains(message, "location")
  }

  /** The outer catch. */
  function OuterCatch(message: string): (r: GenerateResponse)
    ensures r == AiNotice <==> MentionsAiService(message)
    ensures r == ServerFailure <==> !MentionsAiService(message)
  {
    if MentionsAiService(message) then AiNotice else ServerFailure
  }

  function AiDescription(mood: string): string {
    "AI-generated playlist based on: \"" + mood + "\""
  }

  function FallbackDescription(mood: string): string {
    "Generated based on: \"" + mood + "\" (Using keyword extraction - AI unavailable)"
  }

  /** The search terms, the fallback flag and the error message after the
      interpretation step (the catch around it included). */
  datatype Interpretation = Interpretation(terms: seq<string>, usingFallbackAI: bool, geminiError: Option<string>)

  function Interpret(mood: string, env: Env, call: AiCall, parse: string -> ParsedReply): (i: Interpretation)
    ensures |i.terms| > 0
  {
    match InterpretMoodWithAI(mood, env.geminiApiKey, call, parse)
    case Ok(terms) => Interpretation(terms, false, None)
    case Err(message) => Interpretation(ExtractKeywords(mood), true, Some(message))
  }

  /** `POST(request)`. `grant` is the client-credentials grant's answer,
      `call` the AI call's, `search` the catalog search endpoint, `stamp`
      the clock and `encode` is `encodeURIComponent`. */
  function Post(body: GenerateBody, env: Env, grant: Option<string>, call: AiCall, parse: string -> ParsedReply,
                search: SearchApi, stamp: nat, encode: string -> string): GenerateRun
  {
    match body
    case Unparsable(message) => GenerateRun(OuterCatch(message), [])
    case Parsed(field) =>
      if !field.MoodText? || field.text == "" then GenerateRun(MoodRequired, [])
      else
        var mood := field.text;
        match AppAccessToken(env, grant)
        case None => GenerateRun(Demo(DemoPlaylist(mood, stamp)), [])
        case Some(token) =>
          var i := Interpret(mood, env, call, parse);
          var run := SearchTracks(i.terms, token, search);
          if |run.tracks| == 0 then GenerateRun(NoTracks, run.requests)
          else
            var playlist := Playlist(
              "mood-" + Decimal(stamp),
              TruncatedName("Mood: ", mood),
              if i.usingFallbackAI then FallbackDescription(mood) else AiDescription(mood),
              run.tracks,
              SearchUrlBase + encode(i.terms[0]));
            GenerateRun(Generated(playlist, i.usingFallbackAI, i.geminiError), run.requests)
  }

  /** A string mood that is present and non-empty. */
  predicate GivenMood(body: GenerateBody) {
    body.Parsed? && body.mood.MoodText? && body.mood.text != ""
  }

  /** The early outcomes: an unreadable body goes to the outer catch, a
      missing, empty or non-string mood is a 400, and without an app token
      the canned demo playlist is served; none of them searches. */
  lemma EarlyOutcomes(body: GenerateBody, env: Env, grant: Option<string>, call: AiCall, parse: string -> ParsedReply,
                      search: SearchApi, stamp: nat, encode: string -> string)
    ensures var run := Post(body, env, grant, call, parse, search, stamp, encode);
      && (body.Unparsable? ==> run.response == OuterCatch(body.message))
      && (body.Parsed? ==> (run.response == MoodRequired <==> !GivenMood(body)))
      && (GivenMood(body) && AppAccessToken(env, grant).None? ==> run.response == Demo(DemoPlaylist(body.mood.text, stamp)))
      && (!GivenMood(body) || AppAccessToken(env, grant).None? ==> run.searches == [])
  {
  }

  /** With a mood and a token: the searches are those of `searchTracks` on
      the interpreted terms; no tracks is a 404, so a generated playlist is
      never empty; and the catch around the interpretation never runs, so
      the fallback flag is always false and no AI error is reported. */
  lemma SearchOutcomes(body: GenerateBody, env: Env, grant: Option<string>, call: AiCall, parse: string -> ParsedReply,
                       search: SearchApi, stamp: nat, encode: string -> string)
    requires GivenMood(body) && AppAccessToken(env, grant).Some?
    ensures var mood := body.mood.text;
      var terms := InterpretMoodWithAI(mood, env.geminiApiKey, call, parse).value;
      var expected := SearchTracks(terms, AppAccessToken(env, grant).value, search);
      var run := Post(body, env, grant, call, parse, search, stamp, encode);
      && run.searches == expected.requests
      && (run.response == NoTracks <==> expected.tracks == [])
      && (run.response.Generated? <==> expected.tracks != [])
      && (run.response.Generated? ==>
            && run.response.playlist.tracks == expected.tracks
            && |run.response.playlist.tracks| > 0
            && !run.response.usingFallbackAI
            && run.response.geminiError.None?
            && run.response.playlist.name == TruncatedName("Mood: ", mood)
            && run.response.playlist.description == AiDescription(mood)
            && run.response.playlist.externalUrl == SearchUrlBase + encode(terms[0]))
  {
  }

  /** Whatever the inputs, the route never reports the keyword fallback. */
  lemma FallbackFlagNeverSet(body: GenerateBody, env: Env, grant: Option<string>, call: AiCall, parse: string -> ParsedReply,
                             search: SearchApi, stamp: nat, encode: string -> string)
    ensures var r := Post(body, env, grant, call, parse, search, stamp, encode).response;
      r.Generated? ==> !r.usingFallbackAI && r.playlist.description == AiDescription(body.mood.text)
  {
  }
}

=== FILE: http.dfy ===
/** The shape of a request body field as the routes read it. */
module Http {

  /** The `mood` field of a parsed JSON body: absent (or `null`), some
      non-string value, or a string. */
  datatype MoodField = MoodAbsent | MoodNotString | MoodText(text: string)

  /** HTTP status codes the routes answer with. */
  const StatusOk: nat := 200
  const StatusBadRequest: nat := 400
  const StatusNotFound: nat := 404
  const StatusServerError: nat := 500
}

=== FILE: interpreter.dfy ===
/** AI-primary, keyword-fallback mood interpretation of the generate-playlist
    route (`interpretMoodWithAI`). The AI call and `JSON.parse` are inputs:
    `AiCall` is what the model call produced, `parse` the JSON parser. */
module Interpreter {
  import opened Wrappers
  import opened Text
  import opened Config
  import opened Keywords

  /** What the AI call produced: it threw (missing model, region, quota, a
      network failure, ...) or it answered with some text. */
  datatype AiCall = AiFailed(message: string) | AiAnswered(text: string)

  /** What `JSON.parse` made of the cleaned reply: an array (of search
      terms), some other JSON value, or a parse error. */
  datatype ParsedReply = ParsedArray(items: seq<string>) | ParsedOther | ParseError

  const OpeningFence: string := "```json"
  const ClosingFence: string := "```"

  /** `.replace(/^```json\n?/, '')`. */
  function StripOpeningFence(s: string): string {
    if IsPrefix(OpeningFence, s) then
      var rest := s[|OpeningFence|..];
      if |rest| > 0 && rest[0] == '\n' then rest[1..] else rest
    else s
  }

  /** `.replace(/\n?```$/, '')`: the leftmost match, so a newline before the
      closing fence goes with it. */
  function StripClosingFence(s: string): string {
    if IsSuffix("\n" + ClosingFence, s) then s[..|s| - 4]
    else if IsSuffix(ClosingFence, s) then s[..|s| - 3]
    else s
  }

  /** The text handed to `JSON.parse`. */
  function CleanReply(text: string): string {
    StripClosingFence(StripOpeningFence(Trim(text)))
  }

  /** A reply the model wrapped in a json code fence. */
  function Fenced(body: string): string {
    OpeningFence + "\n" + body + "\n" + ClosingFence
  }

  /** Cleaning removes exactly the fence the model wraps its answer in,
      whatever the body. */
  lemma CleanFencedReply(body: string)
    ensures CleanReply(Fenced(body)) == body
  {
    var f := Fenced(body);
    assert f[0] == '`' && f[|f| - 1] == '`';
    TrimUnpadded(f);
    assert IsPrefix(OpeningFence, f);
    var afterOpen := f[|OpeningFence|..];
    assert afterOpen == "\n" + body + "\n" + ClosingFence;
    assert StripOpeningFence(f) == body + "\n" + ClosingFence;
    assert IsSuffix("\n" + ClosingFence, body + "\n" + ClosingFence);
  }

  /** A reply with no surrounding white space and no fences is parsed as is. */
  lemma CleanBareReply(text: string)
    requires |text| > 0 ==> !IsJsSpace(text[0]) && !IsJsSpace(text[|text| - 1])
    requires !IsPrefix(OpeningFence, text) && !IsSuffix(ClosingFence, text)
    ensures CleanReply(text) == text
  {
    TrimUnpadded(text);
  }

  /** The AI answer is used: the key is set, the call answered, and the
      cleaned reply parses to a non-empty array. */
  predicate AcceptsReply(geminiApiKey: Option<string>, call: AiCall, parse: string -> ParsedReply) {
    && Truthy(geminiApiKey)
    && call.AiAnswered?
    && parse(CleanReply(call.text)).ParsedArray?
    && |parse(CleanReply(call.text)).items| > 0
  }

  /** `interpretMoodWithAI`. It is an async function whose promise could in
      principle reject, hence the `Result`; but every failure is caught
      inside it, so it always resolves: to the parsed AI terms when the reply
      is acceptable, and to the keyword fallback in every other case. */
  function InterpretMoodWithAI(mood: string, geminiApiKey: Option<string>, call: AiCall, parse: string -> ParsedReply): (r: Result<seq<string>, string>)
    ensures r.Ok? && |r.value| > 0
    ensures AcceptsReply(geminiApiKey, call, parse) ==> r.value == parse(CleanReply(call.text)).items
    ensures !AcceptsReply(geminiApiKey, call, parse) ==> r.value == ExtractKeywords(mood)
  {
    if !Truthy(geminiApiKey) then Ok(ExtractKeywords(mood))
    else match call
      case AiFailed(_) => Ok(ExtractKeywords(mood))
      case AiAnswered(text) =>
        match parse(CleanReply(text))
        case ParsedArray(items) =>
          if |items| > 0 then Ok(items) else Ok(ExtractKeywords(mood))
        case _ => Ok(ExtractKeywords(mood))
  }

  /** Wrapping an answer in a json code fence does not change how it is
      interpreted. */
  lemma FenceIsTransparent(mood: string, geminiApiKey: Option<string>, body: string, parse: string -> ParsedReply)
    requires CleanReply(body) == body
    ensures InterpretMoodWithAI(mood, geminiApiKey, AiAnswered(Fenced(body)), parse)
         == InterpretMoodWithAI(mood, geminiApiKey, AiAnswered(body), parse)
  {
    CleanFencedReply(body);
  }

  /** Without a key the AI is never consulted: whatever it would have said,
      the result is the keyword fallback. */
  lemma NoKeyMeansFallback(mood: string, geminiApiKey: Option<string>, call: AiCall, parse: string -> ParsedReply)
    requires !Truthy(geminiApiKey)
    ensures InterpretMoodWithAI(mood, geminiApiKey, call, parse) == Ok(ExtractKeywords(mood))
  {
  }
}

=== FILE: keywords.dfy ===
/** The deterministic mood interpreter of the generate-playlist route
    (`moodToSearchTerms` and `extractKeywordsFromMood`): a fixed table of
    mood categories, matched by substring against the lower-cased mood. */
module Keywords {
  import opened Text

  datatype Category = Category(name: string, terms: seq<string>)

  /** `moodToSearchTerms`, in the table's (insertion) order. */
  const MoodTable: seq<Category> := [
    Category("happy", ["happy", "upbeat", "joyful", "cheerful", "positive"]),
    Category("sad", ["sad", "melancholy", "emotional", "heartbreak", "tears"]),
    Category("energetic", ["energetic", "workout", "gym", "exercise", "high energy"]),
    Category("relaxing", ["relaxing", "chill", "calm", "peaceful", "meditation"]),
    Category("focus", ["focus", "study", "concentration", "work", "productivity"]),
    Category("romantic", ["romantic", "love", "romance", "valentine", "intimate"]),
    Category("party", ["party", "dance", "club", "celebration", "festive"]),
    Category("nostalgic", ["nostalgic", "retro", "vintage", "memories", "classic"]),
    Category("angry", ["angry", "rage", "aggressive", "heavy", "intense"]),
    Category("sleepy", ["sleepy", "lullaby", "bedtime", "sleep", "ambient"])
  ]

  /** Used when no category matches. */
  const GenericTerms: seq<string> := ["mood", "vibe", "feeling"]

  const MaxKeywords: nat := 5
  const TermsPerCategory: nat := 2

  /** What a matching category contributes: `terms.slice(0, 2)`. */
  function Lead(c: Category): seq<string> {
    Prefix(c.terms, TermsPerCategory)
  }

  predicate Matches(lowerMood: string, c: Category) {
    Contains(lowerMood, c.name)
  }

  /** The terms pushed by the loop over `table[k..]`. */
  function MatchedFrom(table: seq<Category>, lowerMood: string, k: nat): seq<string>
    requires k <= |table|
    decreases |table| - k
  {
    if k == |table| then []
    else (if Matches(lowerMood, table[k]) then Lead(table[k]) else []) + MatchedFrom(table, lowerMood, k + 1)
  }

  /** Some category of the table matches the lower-cased mood. */
  predicate AnyMatch(lowerMood: string) {
    exists i :: 0 <= i < |MoodTable| && Matches(lowerMood, MoodTable[i])
  }

  /** For each term of `MatchedFrom(table, lowerMood, k)`, the index of the
      category that contributed it. */
  function OriginsFrom(table: seq<Category>, lowerMood: string, k: nat): seq<nat>
    requires k <= |table|
    decreases |table| - k
  {
    if k == |table| then []
    else (if Matches(lowerMood, table[k]) then seq(|Lead(table[k])|, _ => k) else []) + OriginsFrom(table, lowerMood, k + 1)
  }

  /** Each of `terms` is a lead term of the matching category of `table`
      that `origins` names for it. */
  predicate Provenance(table: seq<Category>, lowerMood: string, terms: seq<string>, origins: seq<nat>) {
    && |terms| <= |origins|
    && forall p :: 0 <= p < |terms| ==>
         origins[p] < |table| && Matches(lowerMood, table[origins[p]]) && terms[p] in Lead(table[origins[p]])
  }

  /** There is one origin per pushed term, and it names a matching category
      (at or after `k`) whose lead holds that term. */
  lemma {:induction false} MatchedFromOrigins(table: seq<Category>, lowerMood: string, k: nat)
    requires k <= |table|
    ensures |OriginsFrom(table, lowerMood, k)| == |MatchedFrom(table, lowerMood, k)|
    ensures Provenance(table, lowerMood, MatchedFrom(table, lowerMood, k), OriginsFrom(table, lowerMood, k))
    decreases |table| - k
  {
    if k < |table| {
      MatchedFromOrigins(table, lowerMood, k + 1);
      var rest, ro := MatchedFrom(table, lowerMood, k + 1), OriginsFrom(table, lowerMood, k + 1);
      if Matches(lowerMood, table[k]) {
        var head := Lead(table[k]);
        var found, o := head + rest, seq(|head|, _ => k) + ro;
        assert found == MatchedFrom(table, lowerMood, k) && o == OriginsFrom(table, lowerMood, k);
        forall p | 0 <= p < |found|
          ensures o[p] < |table| && Matches(lowerMood, table[o[p]]) && found[p] in Lead(table[o[p]])
        {
          if p >= |head| {
            assert found[p] == rest[p - |head|] && o[p] == ro[p - |head|];
          }
        }
      }
    }
  }

  /** The contributing categories never go backwards in the table. */
  lemma {:induction false} MatchedFromOrdered(table: seq<Category>, lowerMood: string, k: nat)
    requires k <= |table|
    ensures forall p :: 0 <= p < |OriginsFrom(table, lowerMood, k)| ==> k <= OriginsFrom(table, lowerMood, k)[p]
    ensures forall p, q :: 0 <= p < q < |OriginsFrom(table, lowerMood, k)| ==>
      OriginsFrom(table, lowerMood, k)[p] <= OriginsFrom(table, lowerMood, k)[q]
    decreases |table| - k
  {
    if k < |table| {
      MatchedFromOrdered(table, lowerMood, k + 1);
      var ro := OriginsFrom(table, lowerMood, k + 1);
      if Matches(lowerMood, table[k]) {
        var n := |Lead(table[k])|;
        var head: seq<nat> := seq(n, _ => k);
        var o := head + ro;
        assert o == OriginsFrom(table, lowerMood, k);
        forall p | 0 <= p < |o|
          ensures k <= o[p]
        {
          if p < n {
            assert o[p] == head[p] == k;
          } else {
            assert o[p] == ro[p - n];
          }
        }
        forall p, q | 0 <= p < q < |o|
          ensures o[p] <= o[q]
        {
          if q < n {
            assert o[p] == head[p] == k && o[q] == head[q] == k;
          } else {
            assert o[q] == ro[q - n];
            if p >= n {
              assert o[p] == ro[p - n];
            } else {
              assert o[p] == head[p] == k;
            }
          }
        }
      }
    }
  }

  /** Every lead term of every matching category at or after `k` is pushed. */
  lemma {:induction false} MatchedFromComplete(table: seq<Category>, lowerMood: string, k: nat)
    requires k <= |table|
    ensures forall i, t :: k <= i < |table| && Matches(lowerMood, table[i]) && t in Lead(table[i]) ==> t in MatchedFrom(table, lowerMood, k)
    decreases |table| - k
  {
    if k < |table| {
      MatchedFromComplete(table, lowerMood, k + 1);
    }
  }

  /** The terms of all matching categories, in table order. */
  function MatchedTerms(lowerMood: string): seq<string> {
    MatchedFrom(MoodTable, lowerMood, 0)
  }

  /** For each matched term, the table index of the category it came from. */
  function TermOrigins(lowerMood: string): seq<nat> {
    OriginsFrom(MoodTable, lowerMood, 0)
  }

  /** `extractKeywordsFromMood`: at most five terms, never none, and the
      generic list exactly when no category name occurs in the lower-cased
      mood. */
  function ExtractKeywords(mood: string): (r: seq<string>)
    ensures 1 <= |r| <= MaxKeywords
    ensures r == GenericTerms <==> !AnyMatch(ToLower(mood))
  {
    var found := MatchedTerms(ToLower(mood));
    MatchedNonEmpty(ToLower(mood));
    if |found| == 0 then GenericTerms
    else
      var r := Prefix(found, MaxKeywords);
      assert r[0] == found[0] && found[0] in found;
      assert r[0] != GenericTerms[0];
      r
  }

  /** Some term is pushed exactly when some category matches, and then none
      of the pushed terms is a generic one. */
  lemma {:induction false} MatchedFromNonEmpty(table: seq<Category>, lowerMood: string, k: nat)
    requires k <= |table|
    requires FullLeads(table) && GenericFree(table)
    ensures |MatchedFrom(table, lowerMood, k)| > 0 <==> exists i :: k <= i < |table| && Matches(lowerMood, table[i])
    ensures forall t :: t in MatchedFrom(table, lowerMood, k) ==> t !in GenericTerms
    decreases |table| - k
  {
    if k < |table| {
      MatchedFromNonEmpty(table, lowerMood, k + 1);
      if exists i :: k + 1 <= i < |table| && Matches(lowerMood, table[i]) {
        var i :| k + 1 <= i < |table| && Matches(lowerMood, table[i]);
        assert k <= i;
      }
    }
  }

  lemma MatchedNonEmpty(lowerMood: string)
    ensures |MatchedTerms(lowerMood)| > 0 <==> AnyMatch(lowerMood)
    ensures forall t :: t in MatchedTerms(lowerMood) ==> t !in GenericTerms
  {
    MoodTableShape();
    MatchedFromNonEmpty(MoodTable, lowerMood, 0);
  }

  /** A prefix of the terms keeps its provenance. */
  lemma ProvenancePrefix(table: seq<Category>, lowerMood: string, terms: seq<string>, origins: seq<nat>, n: nat)
    requires Provenance(table, lowerMood, terms, origins)
    ensures Provenance(table, lowerMood, Prefix(terms, n), origins)
  {
    var r := Prefix(terms, n);
    assert forall p :: 0 <= p < |r| ==> r[p] == terms[p];
  }

  /** The categories `origins` names never go backwards in the table. */
  predicate InTableOrder(origins: seq<nat>) {
    forall p, q :: 0 <= p < q < |origins| ==> origins[p] <= origins[q]
  }

  /** When some category matches, every keyword is a lead term of a matching
      category, the keywords come category by category in table order, and
      no generic term is mixed in. */
  lemma KeywordsFromMatchedCategories(mood: string)
    requires AnyMatch(ToLower(mood))
    ensures Provenance(MoodTable, ToLower(mood), ExtractKeywords(mood), TermOrigins(ToLower(mood)))
    ensures InTableOrder(TermOrigins(ToLower(mood)))
    ensures forall t :: t in ExtractKeywords(mood) ==> t !in GenericTerms
  {
    var lower := ToLower(mood);
    MatchedNonEmpty(lower);
    MatchedFromOrigins(MoodTable, lower, 0);
    MatchedFromOrdered(MoodTable, lower, 0);
    ProvenancePrefix(MoodTable, lower, MatchedTerms(lower), TermOrigins(lower), MaxKeywords);
    var r, found := ExtractKeywords(mood), MatchedTerms(lower);
    assert r == Prefix(found, MaxKeywords);
    forall t | t in r
      ensures t !in GenericTerms
    {
      assert t in found;
    }
  }

  /** Below the cap nothing is dropped: every lead term of every matching
      category is among the keywords. */
  lemma KeywordsCompleteBelowCap(mood: string)
    ensures |ExtractKeywords(mood)| < MaxKeywords ==>
      forall i, t :: 0 <= i < |MoodTable| && Matches(ToLower(mood), MoodTable[i]) && t in Lead(MoodTable[i]) ==> t in ExtractKeywords(mood)
  {
    var lower := ToLower(mood);
    MatchedNonEmpty(lower);
    MatchedFromComplete(MoodTable, lower, 0);
    if AnyMatch(lower) && |ExtractKeywords(mood)| < MaxKeywords {
      assert ExtractKeywords(mood) == MatchedTerms(lower);
    }
  }

  /** Matching is case-insensitive: the keywords depend only on the
      lower-cased mood. */
  lemma KeywordsIgnoreCase(a: string, b: string)
    requires ToLower(a) == ToLower(b)
    ensures ExtractKeywords(a) == ExtractKeywords(b)
    ensures ExtractKeywords(ToLower(a)) == ExtractKeywords(a)
  {
    ToLowerIdempotent(a);
  }

  // ---------------------------------------------------------------------
  // Facts about the fixed table

  predicate FullLeads(table: seq<Category>) {
    forall i :: 0 <= i < |table| ==> |Lead(table[i])| == TermsPerCategory
  }

  predicate GenericFree(table: seq<Category>) {
    forall i, t :: 0 <= i < |table| && t in Lead(table[i]) ==> t !in GenericTerms
  }

  /** Every category has at least two terms. */
  lemma MoodTableFullLeads()
    ensures FullLeads(MoodTable)
  {
    forall i | 0 <= i < |MoodTable|
      ensures |Lead(MoodTable[i])| == TermsPerCategory
    {
      assert |MoodTable[i].terms| == 5;
    }
  }

  /** The generic terms are "m"/"v" words of length 4 and an "f" word of
      length 7; a word with another first letter or length is not one. */
  lemma NotGeneric(t: string)
    requires |t| > 0 && (t[0], |t|) !in {('m', 4), ('v', 4), ('f', 7)}
    ensures t !in GenericTerms
  {
  }

  /** No lead term of the table is one of the generic terms. */
  lemma MoodTableGenericFree()
    ensures GenericFree(MoodTable)
  {
    forall i, t | 0 <= i < |MoodTable| && t in Lead(MoodTable[i])
      ensures t !in GenericTerms
    {
      var c := MoodTable[i];
      assert |c.terms| == 5 && Lead(c) == [c.terms[0], c.terms[1]];
      var t0, t1 := c.terms[0], c.terms[1];
      assert |t0| > 0 && (t0[0], |t0|) !in {('m', 4), ('v', 4), ('f', 7)};
      assert |t1| > 0 && (t1[0], |t1|) !in {('m', 4), ('v', 4), ('f', 7)};
      NotGeneric(t0);
      NotGeneric(t1);
    }
  }

  /** Every category has at least two terms, and no lead term is generic. */
  lemma MoodTableShape()
    ensures FullLeads(MoodTable)
    ensures GenericFree(MoodTable)
  {
    MoodTableFullLeads();
    MoodTableGenericFree();
  }
}

=== FILE: lookup.dfy ===
/** Track lookup by id of the create-playlist route (`searchTracksByIds`):
    the ids are asked for in batches of 50, the usable items of each page
    are kept in order, and any failed lookup turns the whole answer into
    the empty list. */
module Lookup {
  import opened Wrappers
  import opened Batching
  import opened Catalog

  /** The track-lookup endpoint accepts at most this many ids per call. */
  const LookupBatch: nat := 50

  datatype LookupRequest = LookupRequest(accessToken: string, ids: seq<string>)

  /** The lookup endpoint: a page (one entry per id, `null` for an unknown
      one), or `None` when the call threw. */
  type LookupApi = LookupRequest -> Option<Page>

  /** What one `searchTracksByIds` call did: the lookups it issued, in
      order, and the tracks it returned. */
  datatype LookupRun = LookupRun(requests: seq<LookupRequest>, tracks: seq<Track>)

  /** The lookups issued for the given batches: one per batch, in order,
      up to and including the first that fails (the loop is left by the
      exception). */
  function Issued(batches: seq<seq<string>>, accessToken: string, lookup: LookupApi): seq<LookupRequest>
    decreases |batches|
  {
    if |batches| == 0 then []
    else
      var request := LookupRequest(accessToken, batches[0]);
      [request] + if lookup(request).None? then [] else Issued(batches[1..], accessToken, lookup)
  }

  /** The tracks collected, or `None` once a lookup fails. */
  function Collected(batches: seq<seq<string>>, accessToken: string, lookup: LookupApi): Option<seq<Track>>
    decreases |batches|
  {
    if |batches| == 0 then Some([])
    else
      match lookup(LookupRequest(accessToken, batches[0]))
      case None => None
      case Some(page) =>
        match Collected(batches[1..], accessToken, lookup)
        case None => None
        case Some(rest) => Some(AcceptPage(page) + rest)
  }

  /** `searchTracksByIds(trackIds, accessToken)`: the catch returns `[]`. */
  function SearchTracksByIds(ids: seq<string>, accessToken: string, lookup: LookupApi): LookupRun {
    var batches := Chunks(ids, LookupBatch);
    LookupRun(Issued(batches, accessToken, lookup), Collected(batches, accessToken, lookup).GetOr([]))
  }

  /** Every lookup of a batch list succeeds. */
  predicate AllSucceed(batches: seq<seq<string>>, accessToken: string, lookup: LookupApi) {
    forall k :: 0 <= k < |batches| ==> lookup(LookupRequest(accessToken, batches[k])).Some?
  }

  /** When no lookup fails, one lookup is issued per batch, in order, and
      the result is collected. */
  lemma {:induction false} IssuedWhenAllSucceed(batches: seq<seq<string>>, accessToken: string, lookup: LookupApi)
    requires AllSucceed(batches, accessToken, lookup)
    ensures |Issued(batches, accessToken, lookup)| == |batches|
    ensures forall k :: 0 <= k < |batches| ==> Issued(batches, accessToken, lookup)[k] == LookupRequest(accessToken, batches[k])
    ensures Collected(batches, accessToken, lookup).Some?
    decreases |batches|
  {
    if |batches| > 0 {
      assert lookup(LookupRequest(accessToken, batches[0])).Some?;
      assert AllSucceed(batches[1..], accessToken, lookup) by {
        forall k | 0 <= k < |batches[1..]|
          ensures lookup(LookupRequest(accessToken, batches[1..][k])).Some?
        {
          assert batches[1..][k] == batches[k + 1];
        }
      }
      IssuedWhenAllSucceed(batches[1..], accessToken, lookup);
    }
  }

  /** When lookup `f` is the first to fail, exactly `f + 1` lookups are
      issued, the later batches are never asked for, and nothing is collected. */
  lemma {:induction false} FirstFailureStops(batches: seq<seq<string>>, accessToken: string, lookup: LookupApi, f: nat)
    requires f < |batches|
    requires lookup(LookupRequest(accessToken, batches[f])).None?
    requires AllSucceed(batches[..f], accessToken, lookup)
    ensures |Issued(batches, accessToken, lookup)| == f + 1
    ensures forall k :: 0 <= k <= f ==> Issued(batches, accessToken, lookup)[k] == LookupRequest(accessToken, batches[k])
    ensures Collected(batches, accessToken, lookup).None?
    decreases f
  {
    if f > 0 {
      assert batches[..f][0] == batches[0];
      var earlier := batches[1..][..f - 1];
      assert AllSucceed(earlier, accessToken, lookup) by {
        forall k | 0 <= k < |earlier|
          ensures lookup(LookupRequest(accessToken, earlier[k])).Some?
        {
          assert earlier[k] == batches[..f][k + 1];
        }
      }
      FirstFailureStops(batches[1..], accessToken, lookup, f - 1);
    }
  }

  /** What `searchTracksByIds` promises when every lookup answers: the ids
      are asked for in order, each exactly once, in ceil(n / 50) lookups of
      at most 50 ids, every lookup but the last holding exactly 50. */
  lemma LookupBatches(ids: seq<string>, accessToken: string, lookup: LookupApi)
    requires AllSucceed(Chunks(ids, LookupBatch), accessToken, lookup)
    ensures var requests := SearchTracksByIds(ids, accessToken, lookup).requests;
      && |requests| == (|ids| + LookupBatch - 1) / LookupBatch
      && (forall k :: 0 <= k < |requests| ==> requests[k].accessToken == accessToken)
      && (forall k :: 0 <= k < |requests| ==> 0 < |requests[k].ids| <= LookupBatch)
      && (forall k :: 0 <= k < |requests| - 1 ==> |requests[k].ids| == LookupBatch)
      && Flatten(RequestedIds(requests)) == ids
  {
    var batches := Chunks(ids, LookupBatch);
    var requests := SearchTracksByIds(ids, accessToken, lookup).requests;
    IssuedWhenAllSucceed(batches, accessToken, lookup);
    ChunksBounded(ids, LookupBatch);
    ChunksCount(ids, LookupBatch);
    ChunksFlatten(ids, LookupBatch);
    assert RequestedIds(requests) == batches;
  }

  /** The ids of each request, in request order. */
  function RequestedIds(requests: seq<LookupRequest>): (r: seq<seq<string>>)
    ensures |r| == |requests|
    ensures forall k :: 0 <= k < |r| ==> r[k] == requests[k].ids
  {
    seq(|requests|, k requires 0 <= k < |requests| => requests[k].ids)
  }

  /** Any failed lookup empties the whole answer, even when earlier
      batches had already produced tracks. */
  lemma AnyFailureGivesNothing(ids: seq<string>, accessToken: string, lookup: LookupApi)
    requires !AllSucceed(Chunks(ids, LookupBatch), accessToken, lookup)
    ensures SearchTracksByIds(ids, accessToken, lookup).tracks == []
  {
    var batches := Chunks(ids, LookupBatch);
    var f := FirstFailure(batches, accessToken, lookup);
    FirstFailureStops(batches, accessToken, lookup, f);
  }

  /** The index of the first failing lookup. */
  function FirstFailure(batches: seq<seq<string>>, accessToken: string, lookup: LookupApi): (f: nat)
    requires !AllSucceed(batches, accessToken, lookup)
    ensures f < |batches|
    ensures lookup(LookupRequest(accessToken, batches[f])).None?
    ensures AllSucceed(batches[..f], accessToken, lookup)
    decreases |batches|
  {
    if lookup(LookupRequest(accessToken, batches[0])).None? then 0
    else
      assert !AllSucceed(batches[1..], accessToken, lookup) by {
        var k :| 0 <= k < |batches| && lookup(LookupRequest(accessToken, batches[k])).None?;
        assert k > 0 && batches[1..][k - 1] == batches[k];
      }
      var g := FirstFailure(batches[1..], accessToken, lookup);
      assert forall k :: 0 <= k < g ==> batches[..g + 1][k + 1] == batches[1..][..g][k];
      g + 1
  }

  /** The accepted tracks of each batch's page, batch by batch. */
  function AcceptedPages(batches: seq<seq<string>>, accessToken: string, lookup: LookupApi): (r: seq<seq<Track>>)
    requires AllSucceed(batches, accessToken, lookup)
    ensures |r| == |batches|
  {
    seq(|batches|, k requires 0 <= k < |batches| => AcceptPage(lookup(LookupRequest(accessToken, batches[k])).value))
  }

  /** When no lookup fails, the answer is the usable tracks of every page,
      page after page in batch order, and within a page in page order. */
  lemma {:induction false} CollectedInBatchOrder(batches: seq<seq<string>>, accessToken: string, lookup: LookupApi)
    requires AllSucceed(batches, accessToken, lookup)
    ensures Collected(batches, accessToken, lookup) == Some(Flatten(AcceptedPages(batches, accessToken, lookup)))
    decreases |batches|
  {
    if |batches| > 0 {
      var tail := batches[1..];
      assert AllSucceed(tail, accessToken, lookup) by {
        forall k | 0 <= k < |tail|
          ensures lookup(LookupRequest(accessToken, tail[k])).Some?
        {
          assert tail[k] == batches[k + 1];
        }
      }
      CollectedInBatchOrder(tail, accessToken, lookup);
      var pages := AcceptedPages(batches, accessToken, lookup);
      assert pages[1..] == AcceptedPages(tail, accessToken, lookup);
    }
  }

  /** When every lookup answers with at most one entry per id asked for, at
      most one track per id comes back, and every track has an id and a name. */
  lemma {:induction false} CollectedBounded(batches: seq<seq<string>>, accessToken: string, lookup: LookupApi)
    requires forall k :: 0 <= k < |batches| ==> match lookup(LookupRequest(accessToken, batches[k]))
      case Some(page) => |page| <= |batches[k]|
      case None => true
    ensures Collected(batches, accessToken, lookup).Some? ==> |Collected(batches, accessToken, lookup).value| <= |Flatten(batches)|
    ensures Collected(batches, accessToken, lookup).Some? ==>
      forall t :: t in Collected(batches, accessToken, lookup).value ==> t.id != "" && t.name != ""
    decreases |batches|
  {
    if |batches| > 0 {
      assert forall k :: 0 <= k < |batches| - 1 ==> batches[1..][k] == batches[k + 1];
      CollectedBounded(batches[1..], accessToken, lookup);
    }
  }

  /** Tracks collected so far, in front of whatever the rest collects. */
  function Prepend(tracks: seq<Track>, rest: Option<seq<Track>>): Option<seq<Track>> {
    match rest
    case None => None
    case Some(more) => Some(tracks + more)
  }

  lemma PrependTwice(a: seq<Track>, b: seq<Track>, rest: Option<seq<Track>>)
    ensures Prepend(a, Prepend(b, rest)) == Prepend(a + b, rest)
  {
    if rest.Some? {
      assert a + (b + rest.value) == (a + b) + rest.value;
    }
  }

  /** One step of the lookup loop, from batch `i` on. */
  lemma LookupStep(batches: seq<seq<string>>, accessToken: string, lookup: LookupApi, i: nat)
    requires i < |batches|
    ensures var request := LookupRequest(accessToken, batches[i]);
      && Issued(batches[i..], accessToken, lookup)
         == [request] + (if lookup(request).None? then [] else Issued(batches[i + 1..], accessToken, lookup))
      && Collected(batches[i..], accessToken, lookup)
         == (if lookup(request).None? then None
             else Prepend(AcceptPage(lookup(request).value), Collected(batches[i + 1..], accessToken, lookup)))
  {
    assert batches[i..][0] == batches[i] && batches[i..][1..] == batches[i + 1..];
  }

  /** After the first `i` batches: the lookups made so far and the tracks
      pushed so far, followed by what the remaining batches do, are what the
      whole run does. */
  predicate Progress(batches: seq<seq<string>>, accessToken: string, lookup: LookupApi, i: nat,
                     requests: seq<LookupRequest>, tracks: seq<Track>) {
    && i <= |batches|
    && Issued(batches, accessToken, lookup) == requests + Issued(batches[i..], accessToken, lookup)
    && Collected(batches, accessToken, lookup) == Prepend(tracks, Collected(batches[i..], accessToken, lookup))
  }

  lemma ProgressStart(batches: seq<seq<string>>, accessToken: string, lookup: LookupApi)
    ensures Progress(batches, accessToken, lookup, 0, [], [])
  {
    assert batches[0..] == batches;
    var all := Collected(batches, accessToken, lookup);
    if all.Some? {
      assert [] + all.value == all.value;
    }
  }

  /** A successful lookup of batch `i` advances the loop by one batch. */
  lemma ProgressAdvance(batches: seq<seq<string>>, accessToken: string, lookup: LookupApi, i: nat,
                        requests: seq<LookupRequest>, tracks: seq<Track>)
    requires i < |batches| && Progress(batches, accessToken, lookup, i, requests, tracks)
    requires lookup(LookupRequest(accessToken, batches[i])).Some?
    ensures Progress(batches, accessToken, lookup, i + 1, requests + [LookupRequest(accessToken, batches[i])],
                     tracks + AcceptPage(lookup(LookupRequest(accessToken, batches[i])).value))
  {
    var request := LookupRequest(accessToken, batches[i]);
    LookupStep(batches, accessToken, lookup, i);
    PrependTwice(tracks, AcceptPage(lookup(request).value), Collected(batches[i + 1..], accessToken, lookup));
  }

  /** A failed lookup of batch `i` ends the run: nothing more is asked for
      and nothing is returned. */
  lemma ProgressStop(batches: seq<seq<string>>, accessToken: string, lookup: LookupApi, i: nat,
                     requests: seq<LookupRequest>, tracks: seq<Track>)
    requires i < |batches| && Progress(batches, accessToken, lookup, i, requests, tracks)
    requires lookup(LookupRequest(accessToken, batches[i])).None?
    ensures Issued(batches, accessToken, lookup) == requests + [LookupRequest(accessToken, batches[i])]
    ensures Collected(batches, accessToken, lookup).None?
  {
    LookupStep(batches, accessToken, lookup, i);
  }

  lemma ProgressEnd(batches: seq<seq<string>>, accessToken: string, lookup: LookupApi,
                    requests: seq<LookupRequest>, tracks: seq<Track>)
    requires Progress(batches, accessToken, lookup, |batches|, requests, tracks)
    ensures Issued(batches, accessToken, lookup) == requests
    ensures Collected(batches, accessToken, lookup) == Some(tracks)
  {
    assert batches[|batches|..] == [];
    assert requests + [] == requests && tracks + [] == tracks;
  }

  /** The lookup loop over given batches: look each up, push the usable
      items, and give up with `[]` at the first failure. */
  method LookUpBatches(batches: seq<seq<string>>, accessToken: string, lookup: LookupApi) returns (requests: seq<LookupRequest>, tracks: seq<Track>)
    ensures requests == Issued(batches, accessToken, lookup)
    ensures tracks == Collected(batches, accessToken, lookup).GetOr([])
  {
    requests := [];
    tracks := [];
    ProgressStart(batches, accessToken, lookup);
    for i := 0 to |batches|
      invariant Progress(batches, accessToken, lookup, i, requests, tracks)
    {
      var request := LookupRequest(accessToken, batches[i]);
      var response := lookup(request);
      if response.None? {
        ProgressStop(batches, accessToken, lookup, i, requests, tracks);
        return requests + [request], [];
      }
      ProgressAdvance(batches, accessToken, lookup, i, requests, tracks);
      requests := requests + [request];
      tracks := tracks + AcceptPage(response.value);
    }
    ProgressEnd(batches, accessToken, lookup, requests, tracks);
  }

  /** `searchTracksByIds` as the route runs it: the batching loop, then
      the lookup loop. */
  method RunSearchTracksByIds(ids: seq<string>, accessToken: string, lookup: LookupApi) returns (requests: seq<LookupRequest>, tracks: seq<Track>)
    ensures LookupRun(requests, tracks) == SearchTracksByIds(ids, accessToken, lookup)
  {
    var batches := SplitIntoChunks(ids, LookupBatch);
    requests, tracks := LookUpBatches(batches, accessToken, lookup);
  }

  /** Three batches for 120 ids: 50, 50 and 20. */
  lemma HundredTwentyIds(ids: seq<string>, accessToken: string, lookup: LookupApi)
    requires |ids| == 120
    requires AllSucceed(Chunks(ids, LookupBatch), accessToken, lookup)
    ensures var requests := SearchTracksByIds(ids, accessToken, lookup).requests;
      && |requests| == 3
      && requests[0].ids == ids[..50] && requests[1].ids == ids[50..100] && requests[2].ids == ids[100..]
  {
    var batches := Chunks(ids, LookupBatch);
    IssuedWhenAllSucceed(batches, accessToken, lookup);
    ChunksCount(ids, LookupBatch);
    ChunkAt(ids, LookupBatch, 0);
    ChunkAt(ids, LookupBatch, 1);
    ChunkAt(ids, LookupBatch, 2);
  }
}

=== FILE: request_log.dfy ===
/** The Express server's request log (index.js): one line per finished
    `/api` request, cut to 80 characters. */
module RequestLog {
  import opened Wrappers
  import opened Text

  const MaxLogLine: nat := 80
  const Ellipsis: char := '…'

  /** `line.length > 80 ? line.slice(0, 79) + "…" : line`. */
  function TruncateLogLine(line: string): (r: string)
    ensures |r| <= MaxLogLine
    ensures |line| <= MaxLogLine ==> r == line
    ensures |line| > MaxLogLine ==> |r| == MaxLogLine && r[MaxLogLine - 1] == Ellipsis
    ensures |line| > MaxLogLine ==> r[..MaxLogLine - 1] == line[..MaxLogLine - 1]
  {
    if |line| > MaxLogLine then line[..MaxLogLine - 1] + [Ellipsis] else line
  }

  /** Cutting a line twice is cutting it once: a cut line is exactly 80
      long, so it is left alone. */
  lemma TruncateIdempotent(line: string)
    ensures TruncateLogLine(TruncateLogLine(line)) == TruncateLogLine(line)
  {
  }

  /** Two long lines that agree on their first 79 characters log the same. */
  lemma TruncateKeepsOnlyHead(a: string, b: string)
    requires |a| > MaxLogLine && |b| > MaxLogLine
    requires a[..MaxLogLine - 1] == b[..MaxLogLine - 1]
    ensures TruncateLogLine(a) == TruncateLogLine(b)
  {
  }

  /** The untruncated line; `verb` is the request method. `captured` is
      `JSON.stringify` of the body the handler sent, present only when that
      body was truthy. */
  function FullLogLine(verb: string, path: string, status: nat, durationMs: nat, captured: Option<string>): string {
    verb + " " + path + " " + Decimal(status) + " in " + Decimal(durationMs) + "ms"
      + (match captured case Some(json) => " :: " + json case None => "")
  }

  /** The line logged when a response finishes, if any. */
  function RequestLogLine(verb: string, path: string, status: nat, durationMs: nat, captured: Option<string>): (r: Option<string>)
    ensures r.Some? <==> IsPrefix("/api", path)
    ensures r.Some? ==> |r.value| <= MaxLogLine
    ensures r.Some? && |verb + " " + path| < MaxLogLine ==> IsPrefix(verb + " " + path, r.value)
  {
    if IsPrefix("/api", path) then
      var full := FullLogLine(verb, path, status, durationMs, captured);
      var head := verb + " " + path;
      assert full[..|head|] == head;
      Some(TruncateLogLine(full))
    else None
  }

  /** A short enough line is logged whole, ending with the body when one
      was captured. */
  lemma ShortLineLoggedWhole(verb: string, path: string, status: nat, durationMs: nat, json: string)
    requires IsPrefix("/api", path)
    requires |FullLogLine(verb, path, status, durationMs, Some(json))| <= MaxLogLine
    ensures RequestLogLine(verb, path, status, durationMs, Some(json)).Some?
    ensures IsSuffix(" :: " + json, RequestLogLine(verb, path, status, durationMs, Some(json)).value)
  {
    var full := FullLogLine(verb, path, status, durationMs, Some(json));
    var head := verb + " " + path + " " + Decimal(status) + " in " + Decimal(durationMs) + "ms";
    assert full == head + (" :: " + json);
    assert full[|full| - |" :: " + json|..] == " :: " + json;
  }
}

=== FILE: server_routes.dfy ===
/** The Express server's `POST /api/generate-playlist` (routes.ts and its
    bundled copy): validate the mood, analyse it, search, and assemble the
    playlist text. The analysis (an AI call), the clock and `createdAt` are
    parameters. */
module ServerRoutes {
  import opened Wrappers
  import opened Text
  import opened Config
  import opened Http
  import opened TokenCache
  import opened ServerSearch

  const MinMoodLength: nat := 3
  const MaxMoodLength: nat := 500
  const InvalidMoodMessage: string := "Invalid mood input"

  datatype ServerPlaylist = ServerPlaylist(
    id: string,
    name: string,
    description: string,
    tracks: seq<ServerTrack>,
    moodPrompt: string,
    createdAt: string)

  /** The route's answers: 400 with the invalid-input error on a body the
      schema rejects, 500 with the error's message on any other failure,
      the playlist otherwise. */
  datatype ServerResponse = InvalidMood(error: string) | GenerationFailed(message: string) | Served(playlist: ServerPlaylist)

  function Status(r: ServerResponse): nat {
    match r
    case InvalidMood(_) => StatusBadRequest
    case GenerationFailed(_) => StatusServerError
    case Served(_) => StatusOk
  }

  /** `z.object({ mood: z.string().min(3).max(500) }).parse(body)`. */
  function ValidatedMood(body: MoodField): (r: Option<string>)
    ensures r.Some? <==> body.MoodText? && MinMoodLength <= |body.text| <= MaxMoodLength
    ensures r.Some? ==> r.value == body.text
  {
    match body
    case MoodText(s) => if MinMoodLength <= |s| <= MaxMoodLength then Some(s) else None
    case _ => None
  }

  /** The length bounds are inclusive: 3 and 500 characters pass, 2 and
      501 do not. */
  lemma MoodLengthEdges()
    ensures ValidatedMood(MoodText("ab")).None?
    ensures ValidatedMood(MoodText("abc")) == Some("abc")
    ensures ValidatedMood(MoodText(seq(500, _ => 'a'))).Some?
    ensures ValidatedMood(MoodText(seq(501, _ => 'a'))).None?
  {
  }

  /** `energy > 0.7 ? 'high' : energy > 0.4 ? 'medium' : 'low'`. */
  function EnergyLabel(energy: real): string {
    if energy > 0.7 then "high" else if energy > 0.4 then "medium" else "low"
  }

  /** The label's three bands, each as an if-and-only-if. */
  lemma EnergyBands(energy: real)
    ensures EnergyLabel(energy) == "high" <==> energy > 0.7
    ensures EnergyLabel(energy) == "medium" <==> 0.4 < energy <= 0.7
    ensures EnergyLabel(energy) == "low" <==> energy <= 0.4
  {
  }

  /** The bands are open below: exactly 0.7 is medium and exactly 0.4 is low. */
  lemma EnergyBoundaries()
    ensures EnergyLabel(0.7) == "medium" && EnergyLabel(0.4) == "low"
  {
  }

  /** Rank of a label: low < medium < high. */
  function LabelRank(tag: string): nat {
    if tag == "high" then 2 else if tag == "medium" then 1 else 0
  }

  /** More energy never gives a lower label. */
  lemma EnergyMonotone(e1: real, e2: real)
    requires e1 <= e2
    ensures LabelRank(EnergyLabel(e1)) <= LabelRank(EnergyLabel(e2))
  {
  }

  const DescriptionLead: string := "A personalized playlist for your \""

  /** What closes the quoted mood and leads into the genres. */
  const MoodCloser: string := "\" mood, featuring "

  /** Everything of the description after the quoted mood. */
  function DescriptionTail(analysis: MoodAnalysis): string {
    MoodCloser + Join(analysis.genres, ", ") + " music with " + analysis.tempo + " tempo and "
      + EnergyLabel(analysis.energy) + " energy."
  }

  function Description(mood: string, analysis: MoodAnalysis): string {
    DescriptionLead + mood + DescriptionTail(analysis)
  }

  /** The genres and tempo part of the description. */
  function DescriptionMiddle(analysis: MoodAnalysis): string {
    Join(analysis.genres, ", ") + " music with " + analysis.tempo
  }

  /** The description laid out as quoted mood, middle part, and ending. */
  lemma DescriptionLayout(mood: string, analysis: MoodAnalysis)
    ensures Description(mood, analysis)
         == DescriptionLead + mood + MoodCloser + DescriptionMiddle(analysis) + " tempo and "
            + (EnergyLabel(analysis.energy) + " energy.")
  {
  }

  /** Where the parts of `lead + m + closer + middle + link + ending` sit. */
  lemma PartsInPlace(lead: string, m: string, closer: string, middle: string, link: string, ending: string)
    ensures var s := lead + m + closer + middle + link + ending;
      && IsPrefix(lead + m, s)
      && OccursAt(s, middle, |lead + m| + |closer|)
      && IsSuffix(ending, s)
  {
    var s := lead + m + closer + middle + link + ending;
    var at := |lead + m| + |closer|;
    assert s[..|lead + m|] == lead + m;
    assert s[at..at + |middle|] == middle;
    assert s[|s| - |ending|..] == ending;
  }

  /** A quote between a fixed lead and a fixed tail can be read back. */
  lemma QuoteInjective(lead: string, m1: string, m2: string, tail: string)
    requires lead + m1 + tail == lead + m2 + tail
    ensures m1 == m2
  {
    var s := lead + m1 + tail;
    assert m1 == s[|lead|..|lead| + |m1|];
    assert m2 == (lead + m2 + tail)[|lead|..|lead| + |m2|];
  }

  /** The description quotes the mood, names the genres and the tempo right
      after the quote, and ends with the energy label; and the mood can be
      read back out of it, so two different moods never share a
      description. */
  lemma DescriptionQuotesMood(m1: string, m2: string, analysis: MoodAnalysis)
    ensures IsPrefix(DescriptionLead + m1, Description(m1, analysis))
    ensures OccursAt(Description(m1, analysis), DescriptionMiddle(analysis), |DescriptionLead + m1| + |MoodCloser|)
    ensures IsSuffix(EnergyLabel(analysis.energy) + " energy.", Description(m1, analysis))
    ensures Description(m1, analysis) == Description(m2, analysis) ==> m1 == m2
  {
    DescriptionLayout(m1, analysis);
    PartsInPlace(DescriptionLead, m1, MoodCloser, DescriptionMiddle(analysis), " tempo and ", EnergyLabel(analysis.energy) + " energy.");
    if Description(m1, analysis) == Description(m2, analysis) {
      QuoteInjective(DescriptionLead, m1, m2, DescriptionTail(analysis));
    }
  }

  /** The route at clock reading `now` (for the token cache), with
      `stamp` the `Date.now()` of the playlist id. */
  function GeneratePlaylistRoute(body: MoodField, cache: Option<Credential>, now: int, env: Env,
                                 analyze: string -> Result<MoodAnalysis, string>, tokenResponse: TokenResponse,
                                 search: ServerSearchRequest -> SearchResponse, stamp: nat, createdAt: string): (ServerResponse, Option<Credential>)
  {
    match ValidatedMood(body)
    case None => (InvalidMood(InvalidMoodMessage), cache)
    case Some(mood) =>
      match analyze(mood)
      case Err(message) => (GenerationFailed(message), cache)
      case Ok(analysis) =>
        var run := SearchSpotifyTracks(cache, now, env, tokenResponse, analysis, search);
        match run.result
        case Err(message) => (GenerationFailed(message), run.cache)
        case Ok(tracks) =>
          var playlist := ServerPlaylist("playlist-" + Decimal(stamp), analysis.mood + " Vibes",
                                         Description(mood, analysis), tracks, mood, createdAt);
          (Served(playlist), run.cache)
  }

  /** The route's outcomes: 400 exactly for a mood outside 3..500 characters
      (with the cache untouched); 500 when the analysis or the search fails;
      otherwise a playlist named after the analysed mood, carrying the
      validated mood and exactly the searched tracks, even when there are
      none. */
  lemma RouteOutcomes(body: MoodField, cache: Option<Credential>, now: int, env: Env,
                      analyze: string -> Result<MoodAnalysis, string>, tokenResponse: TokenResponse,
                      search: ServerSearchRequest -> SearchResponse, stamp: nat, createdAt: string)
    ensures var (response, _) := GeneratePlaylistRoute(body, cache, now, env, analyze, tokenResponse, search, stamp, createdAt);
      && (Status(response) == StatusBadRequest <==> ValidatedMood(body).None?)
      && (ValidatedMood(body).None? ==> response == InvalidMood(InvalidMoodMessage))
      && (response.GenerationFailed? <==>
            ValidatedMood(body).Some? &&
            (analyze(body.text).Err? ||
             SearchSpotifyTracks(cache, now, env, tokenResponse, analyze(body.text).value, search).result.Err?))
      && (response.Served? ==>
            var analysis := analyze(body.text).value;
            && response.playlist.name == analysis.mood + " Vibes"
            && response.playlist.moodPrompt == body.text
            && response.playlist.tracks == SearchSpotifyTracks(cache, now, env, tokenResponse, analysis, search).result.value
            && response.playlist.description == Description(body.text, analysis))
    ensures ValidatedMood(body).None? ==> GeneratePlaylistRoute(body, cache, now, env, analyze, tokenResponse, search, stamp, createdAt).1 == cache
  {
  }
}

=== FILE: server_search.dfy ===
/** The Express server's catalog search (`searchSpotifyTracks` in spotify.ts
    and its bundled copy): a token from the cache, one search whose query is
    built from the mood analysis, the tracks that carry a preview, the first
    15 of them. Any failure is rethrown, wrapped. */
module ServerSearch {
  import opened Wrappers
  import opened Text
  import opened Config
  import opened TokenCache

  const MaxQueryKeywords: nat := 3
  const MaxQueryGenres: nat := 2
  const MaxServerTracks: nat := 15
  /** The `limit` parameter of the search request. */
  const ServerSearchLimit: nat := 50
  const SearchFailedPrefix: string := "Spotify search failed: "
  const WrappedFailurePrefix: string := "Failed to search Spotify: "

  /** The analysis the AI produced for a mood; the numbers are in 0..1. */
  datatype MoodAnalysis = MoodAnalysis(
    energy: real,
    valence: real,
    danceability: real,
    genres: seq<string>,
    tempo: string,
    mood: string,
    keywords: seq<string>)

  /** A search item as the server's interface declares it: every field
      present except the preview. */
  datatype CatalogItem = CatalogItem(
    id: string,
    name: string,
    artists: seq<string>,
    albumName: string,
    imageUrls: seq<string>,
    durationMs: int,
    previewUrl: Option<string>,
    spotifyUrl: string)

  /** The server's `Track` record. */
  datatype ServerTrack = ServerTrack(
    id: string,
    name: string,
    artist: string,
    album: string,
    albumArt: string,
    duration: int,
    previewUrl: Option<string>,
    spotifyUrl: string)

  datatype ServerSearchRequest = ServerSearchRequest(accessToken: string, q: string, kind: string, limit: nat)

  /** What the search endpoint did: the fetch (or its JSON) threw, a non-ok
      status, or the items of `data.tracks?.items || []`. */
  datatype SearchResponse = SearchThrew(message: string) | SearchNotOk(statusText: string) | SearchOk(items: seq<CatalogItem>)

  /** The outcome of one call: the tracks or the error message, the token
      cache after it, and the search request if one was sent. */
  datatype ServerSearchRun = ServerSearchRun(result: Result<seq<ServerTrack>, string>, cache: Option<Credential>, request: Option<ServerSearchRequest>)

  /** `${keywords.slice(0,3).join(" ")} genre:${genres.slice(0,2).join(",")}`. */
  function SearchQuery(analysis: MoodAnalysis): string {
    Join(Prefix(analysis.keywords, MaxQueryKeywords), " ") + " genre:" + Join(Prefix(analysis.genres, MaxQueryGenres), ",")
  }

  /** The query reads only the first three keywords and the first two
      genres: the rest of the analysis never reaches the search. */
  lemma QueryReadsOnlyLeads(a: MoodAnalysis, b: MoodAnalysis)
    requires Prefix(a.keywords, MaxQueryKeywords) == Prefix(b.keywords, MaxQueryKeywords)
    requires Prefix(a.genres, MaxQueryGenres) == Prefix(b.genres, MaxQueryGenres)
    ensures SearchQuery(a) == SearchQuery(b)
  {
  }

  /** The query is the keyword part followed directly by " genre:" and the
      genre part, with nothing between; with no keywords it starts with
      " genre:". */
  lemma QueryShape(analysis: MoodAnalysis)
    ensures IsPrefix(Join(Prefix(analysis.keywords, MaxQueryKeywords), " "), SearchQuery(analysis))
    ensures IsSuffix(" genre:" + Join(Prefix(analysis.genres, MaxQueryGenres), ","), SearchQuery(analysis))
    ensures |SearchQuery(analysis)| == |Join(Prefix(analysis.keywords, MaxQueryKeywords), " ")| + |" genre:" + Join(Prefix(analysis.genres, MaxQueryGenres), ",")|
    ensures |analysis.keywords| == 0 ==> IsPrefix(" genre:", SearchQuery(analysis))
  {
    var k := Join(Prefix(analysis.keywords, MaxQueryKeywords), " ");
    var g := " genre:" + Join(Prefix(analysis.genres, MaxQueryGenres), ",");
    assert SearchQuery(analysis) == k + g;
    assert (k + g)[..|k|] == k;
    assert (k + g)[|k + g| - |g|..] == g;
    if |analysis.keywords| == 0 {
      assert k == "";
    }
  }

  function ToServerTrack(item: CatalogItem): (t: ServerTrack)
    ensures t.id == item.id && t.name == item.name && t.album == item.albumName
    ensures t.artist == Join(item.artists, ", ")
    ensures t.albumArt == if |item.imageUrls| > 0 then item.imageUrls[0] else ""
    ensures t.duration == item.durationMs && t.previewUrl == item.previewUrl && t.spotifyUrl == item.spotifyUrl
  {
    ServerTrack(
      item.id,
      item.name,
      Join(item.artists, ", "),
      item.albumName,
      if |item.imageUrls| > 0 then item.imageUrls[0] else "",
      item.durationMs,
      item.previewUrl,
      item.spotifyUrl)
  }

  /** `.filter(track => track.preview_url).map(...)`: the items with a
      preview, converted, in order. */
  function WithPreview(items: seq<CatalogItem>): (r: seq<ServerTrack>)
    ensures |r| <= |items|
    ensures forall k :: 0 <= k < |r| ==> Truthy(r[k].previewUrl)
    ensures forall t :: t in r <==> exists i :: 0 <= i < |items| && Truthy(items[i].previewUrl) && t == ToServerTrack(items[i])
    decreases |items|
  {
    if |items| == 0 then []
    else
      var rest := WithPreview(items[1..]);
      assert forall t :: t in rest <==> exists i :: 1 <= i < |items| && Truthy(items[i].previewUrl) && t == ToServerTrack(items[i]) by {
        forall t | t in rest
          ensures exists i :: 1 <= i < |items| && Truthy(items[i].previewUrl) && t == ToServerTrack(items[i])
        {
          var i :| 0 <= i < |items[1..]| && Truthy(items[1..][i].previewUrl) && t == ToServerTrack(items[1..][i]);
          assert items[i + 1] == items[1..][i];
        }
        forall t, i | 1 <= i < |items| && Truthy(items[i].previewUrl) && t == ToServerTrack(items[i])
          ensures t in rest
        {
          assert items[1..][i - 1] == items[i];
        }
      }
      if Truthy(items[0].previewUrl) then [ToServerTrack(items[0])] + rest else rest
  }

  /** One item is kept, converted, exactly when it carries a preview. */
  lemma WithPreviewSingle(item: CatalogItem)
    ensures WithPreview([item]) == if Truthy(item.previewUrl) then [ToServerTrack(item)] else []
  {
    assert [item][1..] == [];
  }

  /** The filter goes through the items in input order: filtering two lists
      one after the other is filtering them joined. */
  lemma {:induction false} WithPreviewAppend(a: seq<CatalogItem>, b: seq<CatalogItem>)
    ensures WithPreview(a + b) == WithPreview(a) + WithPreview(b)
    decreases |a|
  {
    if |a| == 0 {
      assert a + b == b;
    } else {
      assert (a + b)[0] == a[0];
      assert (a + b)[1..] == a[1..] + b;
      WithPreviewAppend(a[1..], b);
    }
  }

  /** The number of items that carry a preview. */
  function PreviewCount(items: seq<CatalogItem>): nat
    decreases |items|
  {
    if |items| == 0 then 0
    else (if Truthy(items[0].previewUrl) then 1 else 0) + PreviewCount(items[1..])
  }

  /** The filter keeps exactly the items that carry a preview. */
  lemma {:induction false} WithPreviewCount(items: seq<CatalogItem>)
    ensures |WithPreview(items)| == PreviewCount(items)
    decreases |items|
  {
    if |items| > 0 {
      WithPreviewCount(items[1..]);
    }
  }

  /** The tracks a successful search page yields. */
  function PageTracks(items: seq<CatalogItem>): seq<ServerTrack> {
    Prefix(WithPreview(items), MaxServerTracks)
  }

  /** What a successful search returns: the first 15 of the previewable
      items, in order, each with a preview; all of them when there are
      fewer than 15. */
  lemma PageTracksSpec(items: seq<CatalogItem>)
    ensures |PageTracks(items)| == if PreviewCount(items) < MaxServerTracks then PreviewCount(items) else MaxServerTracks
    ensures PageTracks(items) <= WithPreview(items)
    ensures forall k :: 0 <= k < |PageTracks(items)| ==> Truthy(PageTracks(items)[k].previewUrl)
  {
    WithPreviewCount(items);
  }

  /** Once the first `n` items hold 15 with a preview, the items after them
      never reach the result. */
  lemma PageTracksIgnoreRest(items: seq<CatalogItem>, n: nat)
    requires n <= |items| && PreviewCount(items[..n]) >= MaxServerTracks
    ensures PageTracks(items) == PageTracks(items[..n])
  {
    assert items == items[..n] + items[n..];
    WithPreviewAppend(items[..n], items[n..]);
    WithPreviewCount(items[..n]);
    var head := WithPreview(items[..n]);
    assert (head + WithPreview(items[n..]))[..MaxServerTracks] == head[..MaxServerTracks];
  }

  /** `searchSpotifyTracks(analysis)` at clock reading `now`, with the token
      endpoint's and the search endpoint's answers as parameters. */
  function SearchSpotifyTracks(cache: Option<Credential>, now: int, env: Env, tokenResponse: TokenResponse,
                               analysis: MoodAnalysis, search: ServerSearchRequest -> SearchResponse): (run: ServerSearchRun)
    ensures run.cache == GetSpotifyToken(cache, now, env, tokenResponse).cache
    ensures run.request.Some? <==> GetSpotifyToken(cache, now, env, tokenResponse).result.Ok?
    ensures run.result.Err? ==> IsPrefix(WrappedFailurePrefix, run.result.error)
    ensures run.result.Ok? <==> run.request.Some? && search(run.request.value).SearchOk?
    ensures run.result.Ok? ==> run.result.value == PageTracks(search(run.request.value).items)
    ensures run.request.Some? ==> run.request.value.q == SearchQuery(analysis) && run.request.value.limit == ServerSearchLimit
    ensures run.request.Some? ==>
      run.request.value == ServerSearchRequest(GetSpotifyToken(cache, now, env, tokenResponse).result.value,
                                               SearchQuery(analysis), "track", ServerSearchLimit)
  {
    var step := GetSpotifyToken(cache, now, env, tokenResponse);
    match step.result
    case Err(message) => ServerSearchRun(Err(Wrapped(message)), step.cache, None)
    case Ok(token) =>
      var request := ServerSearchRequest(token, SearchQuery(analysis), "track", ServerSearchLimit);
      match search(request)
      case SearchThrew(message) => ServerSearchRun(Err(Wrapped(message)), step.cache, Some(request))
      case SearchNotOk(statusText) => ServerSearchRun(Err(Wrapped(SearchFailedPrefix + statusText)), step.cache, Some(request))
      case SearchOk(items) => ServerSearchRun(Ok(PageTracks(items)), step.cache, Some(request))
  }

  /** The rethrown error's message: `${error}` of an `Error` renders as
      "Error: " followed by its message. */
  function Wrapped(message: string): (w: string)
    ensures IsPrefix(WrappedFailurePrefix, w)
  {
    WrappedFailurePrefix + "Error: " + message
  }

  /** No partial results: a failed search gives no tracks at all, and a
      token failure sends no search. */
  lemma FailureIsRethrown(cache: Option<Credential>, now: int, env: Env, tokenResponse: TokenResponse,
                          analysis: MoodAnalysis, search: ServerSearchRequest -> SearchResponse)
    requires var step := GetSpotifyToken(cache, now, env, tokenResponse);
      step.result.Err? || !search(ServerSearchRequest(step.result.value, SearchQuery(analysis), "track", ServerSearchLimit)).SearchOk?
    ensures SearchSpotifyTracks(cache, now, env, tokenResponse, analysis, search).result.Err?
  {
  }
}

=== FILE: term_search.dfy ===
/** Term search of the generate-playlist route (`searchTracks`): one catalog
    search per term for the first three terms, failures isolated per term,
    then de-duplication by id (first occurrence wins) and a cap of 20. */
module TermSearch {
  import opened Wrappers
  import opened Text
  import opened Catalog

  const MaxSearchTerms: nat := 3
  const MaxTracks: nat := 20
  /** The `limit` and `market` of every search request. */
  const SearchLimit: nat := 10
  const SearchMarket: string := "US"

  datatype SearchRequest = SearchRequest(accessToken: string, query: string, limit: nat, market: string)

  /** The catalog search endpoint: a page of items, or `None` when the
      request rejected. */
  type SearchApi = SearchRequest -> Option<Page>

  /** What one `searchTracks` call did: the requests it issued, in order,
      and the tracks it returned. */
  datatype SearchRun = SearchRun(requests: seq<SearchRequest>, tracks: seq<Track>)

  function RequestFor(accessToken: string, term: string): SearchRequest {
    SearchRequest(accessToken, term, SearchLimit, SearchMarket)
  }

  /** One request per term of `terms.slice(0, 3)`, in term order. */
  function Requests(terms: seq<string>, accessToken: string): (r: seq<SearchRequest>)
    ensures |r| == |Prefix(terms, MaxSearchTerms)|
    ensures forall i :: 0 <= i < |r| ==> r[i] == RequestFor(accessToken, terms[i])
  {
    var ts := Prefix(terms, MaxSearchTerms);
    seq(|ts|, i requires 0 <= i < |ts| => RequestFor(accessToken, ts[i]))
  }

  /** The usable tracks of one request's page; nothing when it rejected. */
  function Found(request: SearchRequest, search: SearchApi): seq<Track> {
    match search(request)
    case Some(items) => AcceptPage(items)
    case None => []
  }

  /** The tracks pushed for a sequence of requests, in request order. */
  function Gather(requests: seq<SearchRequest>, search: SearchApi): seq<Track>
    decreases |requests|
  {
    if |requests| == 0 then [] else Found(requests[0], search) + Gather(requests[1..], search)
  }

  lemma {:induction false} GatherAppend(a: seq<SearchRequest>, b: seq<SearchRequest>, search: SearchApi)
    ensures Gather(a + b, search) == Gather(a, search) + Gather(b, search)
    decreases |a|
  {
    if |a| == 0 {
      assert a + b == b;
    } else {
      assert (a + b)[1..] == a[1..] + b;
      GatherAppend(a[1..], b, search);
    }
  }

  lemma GatherCons(request: SearchRequest, rest: seq<SearchRequest>, search: SearchApi)
    ensures Gather([request] + rest, search) == Found(request, search) + Gather(rest, search)
  {
    assert ([request] + rest)[1..] == rest;
  }

  /** A rejected request is isolated: the result is what the other
      requests, in their order, would have produced without it. */
  lemma FailedRequestIsSkipped(requests: seq<SearchRequest>, i: nat, search: SearchApi)
    requires i < |requests| && search(requests[i]).None?
    ensures Gather(requests, search) == Gather(requests[..i] + requests[i + 1..], search)
  {
    var a, b, r := requests[..i], requests[i + 1..], requests[i];
    SplitAround(requests, i);
    GatherCons(r, b, search);
    GatherAppend(a, [r] + b, search);
    GatherAppend(a, b, search);
  }

  /** A list is its part before `i`, its element at `i`, and the rest. */
  lemma SplitAround<T>(xs: seq<T>, i: nat)
    requires i < |xs|
    ensures xs == xs[..i] + ([xs[i]] + xs[i + 1..])
  {
  }

  // ---------------------------------------------------------------------
  // De-duplication by id

  function Ids(ts: seq<Track>): set<string> {
    set t | t in ts :: t.id
  }

  predicate NoDuplicateIds(ts: seq<Track>) {
    forall i, j :: 0 <= i < j < |ts| ==> ts[i].id != ts[j].id
  }

  /** `index === self.findIndex(t => t.id === track.id)`: no earlier element
      has the same id. */
  predicate FirstOccurrence(ts: seq<Track>, i: nat)
    requires i < |ts|
  {
    forall j :: 0 <= j < i ==> ts[j].id != ts[i].id
  }

  /** `allTracks.filter(...)` with the predicate above, element by element. */
  function Dedup(ts: seq<Track>): seq<Track>
    decreases |ts|
  {
    if |ts| == 0 then []
    else
      var last := |ts| - 1;
      Dedup(ts[..last]) + (if FirstOccurrence(ts, last) then [ts[last]] else [])
  }

  /** `sub` keeps some elements of `ts`, in their original order. */
  predicate IsSubsequence<T(==)>(sub: seq<T>, ts: seq<T>)
    decreases |ts|
  {
    if |sub| == 0 then true
    else if |ts| == 0 then false
    else if sub[|sub| - 1] == ts[|ts| - 1] then IsSubsequence(sub[..|sub| - 1], ts[..|ts| - 1])
    else IsSubsequence(sub, ts[..|ts| - 1])
  }

  lemma {:induction false} SubsequenceMembers<T>(sub: seq<T>, ts: seq<T>)
    requires IsSubsequence(sub, ts)
    ensures forall x :: x in sub ==> x in ts
    decreases |ts|
  {
    if |sub| > 0 && |ts| > 0 {
      if sub[|sub| - 1] == ts[|ts| - 1] {
        SubsequenceMembers(sub[..|sub| - 1], ts[..|ts| - 1]);
        assert sub == sub[..|sub| - 1] + [sub[|sub| - 1]];
      } else {
        SubsequenceMembers(sub, ts[..|ts| - 1]);
      }
    }
  }

  /** A subsequence of all but the last element is a subsequence of the whole. */
  lemma {:induction false} SubsequenceStep<T>(sub: seq<T>, ts: seq<T>)
    requires |ts| > 0 && IsSubsequence(sub, ts[..|ts| - 1])
    ensures IsSubsequence(sub, ts)
    decreases |ts|, |sub|
  {
    if |sub| > 0 && sub[|sub| - 1] == ts[|ts| - 1] {
      SubsequenceDropLast(sub, ts[..|ts| - 1]);
    }
  }

  /** Dropping the last element of a subsequence keeps it a subsequence. */
  lemma {:induction false} SubsequenceDropLast<T>(sub: seq<T>, ts: seq<T>)
    requires |sub| > 0 && IsSubsequence(sub, ts)
    ensures IsSubsequence(sub[..|sub| - 1], ts)
    decreases |ts|, |sub|
  {
    if sub[|sub| - 1] != ts[|ts| - 1] {
      SubsequenceDropLast(sub, ts[..|ts| - 1]);
    }
    SubsequenceStep(sub[..|sub| - 1], ts);
  }

  /** Keeping the last element when it is the first of its id. */
  lemma DedupStep(ts: seq<Track>)
    requires |ts| > 0
    ensures FirstOccurrence(ts, |ts| - 1) ==> Dedup(ts) == Dedup(ts[..|ts| - 1]) + [ts[|ts| - 1]]
    ensures !FirstOccurrence(ts, |ts| - 1) ==> Dedup(ts) == Dedup(ts[..|ts| - 1])
  {
  }

  /** The ids of a list are those of all but its last element, plus the last's. */
  lemma IdsSnoc(ts: seq<Track>)
    requires |ts| > 0
    ensures Ids(ts) == Ids(ts[..|ts| - 1]) + {ts[|ts| - 1].id}
  {
    assert ts == ts[..|ts| - 1] + [ts[|ts| - 1]];
  }

  /** The first occurrence of an id is not among the earlier ids. */
  lemma FirstOccurrenceIsNew(ts: seq<Track>)
    requires |ts| > 0 && FirstOccurrence(ts, |ts| - 1)
    ensures ts[|ts| - 1].id !in Ids(ts[..|ts| - 1])
  {
    var init := ts[..|ts| - 1];
    forall t | t in init
      ensures t.id != ts[|ts| - 1].id
    {
      var j :| 0 <= j < |init| && init[j] == t;
      assert ts[j] == t;
    }
  }

  /** De-duplication keeps every id of the list and no other. */
  lemma {:induction false} DedupIds(ts: seq<Track>)
    ensures Ids(Dedup(ts)) == Ids(ts)
    decreases |ts|
  {
    if |ts| > 0 {
      var last := |ts| - 1;
      DedupIds(ts[..last]);
      DedupStep(ts);
      IdsSnoc(ts);
      if FirstOccurrence(ts, last) {
        IdsSnoc(Dedup(ts));
        assert Dedup(ts)[..|Dedup(ts)| - 1] == Dedup(ts[..last]);
      } else {
        var j :| 0 <= j < last && ts[j].id == ts[last].id;
        assert ts[j] in ts[..last];
      }
    }
  }

  /** De-duplication leaves no two tracks with the same id. */
  lemma {:induction false} DedupDistinct(ts: seq<Track>)
    ensures NoDuplicateIds(Dedup(ts))
    decreases |ts|
  {
    if |ts| > 0 {
      var last := |ts| - 1;
      var d := Dedup(ts[..last]);
      DedupDistinct(ts[..last]);
      DedupStep(ts);
      if FirstOccurrence(ts, last) {
        FirstOccurrenceIsNew(ts);
        DedupIds(ts[..last]);
        var r := Dedup(ts);
        forall i, j | 0 <= i < j < |r|
          ensures r[i].id != r[j].id
        {
          assert r[i] == d[i];
          if j < |d| {
            assert r[j] == d[j];
          } else {
            assert r[i] in d;
          }
        }
      }
    }
  }

  /** De-duplication keeps the surviving tracks in their original order. */
  lemma {:induction false} DedupSubsequence(ts: seq<Track>)
    ensures IsSubsequence(Dedup(ts), ts)
    decreases |ts|
  {
    if |ts| > 0 {
      var last := |ts| - 1;
      DedupSubsequence(ts[..last]);
      DedupStep(ts);
      if FirstOccurrence(ts, last) {
        var r := Dedup(ts);
        assert r[|r| - 1] == ts[last] && r[..|r| - 1] == Dedup(ts[..last]);
      } else {
        SubsequenceStep(Dedup(ts), ts);
      }
    }
  }

  /** Every surviving track is the first track of its id: the one
      `findIndex` finds. */
  lemma {:induction false} DedupKeepsFirst(ts: seq<Track>)
    ensures forall t :: t in Dedup(ts) ==> exists i :: 0 <= i < |ts| && ts[i] == t && FirstOccurrence(ts, i)
    decreases |ts|
  {
    if |ts| > 0 {
      var last := |ts| - 1;
      var init := ts[..last];
      DedupKeepsFirst(init);
      DedupStep(ts);
      forall t | t in Dedup(ts)
        ensures exists i :: 0 <= i < |ts| && ts[i] == t && FirstOccurrence(ts, i)
      {
        if t in Dedup(init) {
          var i :| 0 <= i < |init| && init[i] == t && FirstOccurrence(init, i);
          assert ts[i] == t && FirstOccurrence(ts, i);
        } else {
          assert t == ts[last] && FirstOccurrence(ts, last);
        }
      }
    }
  }

  /** The first track of an id is exactly one whose id has not been seen before. */
  lemma FirstOccurrenceIff(ts: seq<Track>)
    requires |ts| > 0
    ensures FirstOccurrence(ts, |ts| - 1) <==> ts[|ts| - 1].id !in Ids(ts[..|ts| - 1])
  {
    var last := |ts| - 1;
    if FirstOccurrence(ts, last) {
      FirstOccurrenceIsNew(ts);
    } else {
      var j :| 0 <= j < last && ts[j].id == ts[last].id;
      assert ts[j] in ts[..last];
    }
  }

  /** De-duplication the usual way, with a set of the ids seen so far; it
      agrees with the `findIndex` filter on every list. */
  method DedupWithSeenSet(ts: seq<Track>) returns (r: seq<Track>)
    ensures r == Dedup(ts)
  {
    r := [];
    var seen: set<string> := {};
    for i := 0 to |ts|
      invariant r == Dedup(ts[..i])
      invariant seen == Ids(ts[..i])
    {
      var upTo := ts[..i + 1];
      assert upTo[..i] == ts[..i] && upTo[i] == ts[i];
      FirstOccurrenceIff(upTo);
      DedupStep(upTo);
      IdsSnoc(upTo);
      if ts[i].id !in seen {
        r := r + [ts[i]];
      }
      seen := seen + {ts[i].id};
    }
    assert ts[..|ts|] == ts;
  }

  /** What de-duplication promises: no repeated id, no id lost, the first
      track of each id kept, original order preserved. */
  lemma DedupSpec(ts: seq<Track>)
    ensures NoDuplicateIds(Dedup(ts))
    ensures Ids(Dedup(ts)) == Ids(ts)
    ensures IsSubsequence(Dedup(ts), ts)
    ensures forall t :: t in Dedup(ts) ==> exists i :: 0 <= i < |ts| && ts[i] == t && FirstOccurrence(ts, i)
  {
    DedupDistinct(ts);
    DedupIds(ts);
    DedupSubsequence(ts);
    DedupKeepsFirst(ts);
  }

  // ---------------------------------------------------------------------
  // The whole search

  /** `searchTracks(searchTerms, accessToken)`. */
  function SearchTracks(terms: seq<string>, accessToken: string, search: SearchApi): SearchRun {
    var requests := Requests(terms, accessToken);
    SearchRun(requests, Prefix(Dedup(Gather(requests, search)), MaxTracks))
  }

  /** What `searchTracks` promises: at most three requests, for the first
      terms in order; the first 20 of the de-duplicated gathered tracks (all
      of them when there are fewer), so no two share an id and each is the
      conversion of a usable item of a searched page; and no tracks exactly
      when no searched page had a usable item. */
  lemma SearchTracksSpec(terms: seq<string>, accessToken: string, search: SearchApi)
    ensures var run := SearchTracks(terms, accessToken, search);
      var unique := Dedup(Gather(run.requests, search));
      && |run.requests| <= MaxSearchTerms
      && |run.requests| == |Prefix(terms, MaxSearchTerms)|
      && (forall i :: 0 <= i < |run.requests| ==> run.requests[i].query == terms[i])
      && run.tracks <= unique
      && |run.tracks| == (if |unique| < MaxTracks then |unique| else MaxTracks)
      && NoDuplicateIds(run.tracks)
      && (forall t :: t in run.tracks ==> t.id != "" && t.name != "")
      && (forall t :: t in run.tracks ==> FromSearched(t, run.requests, search))
      && (run.tracks == [] <==> forall i :: 0 <= i < |run.requests| ==> NothingUsable(search(run.requests[i])))
  {
    var run := SearchTracks(terms, accessToken, search);
    var all := Gather(run.requests, search);
    var d := Dedup(all);
    DedupSpec(all);
    SubsequenceMembers(d, all);
    GatherNamed(run.requests, search);
    GatherFromPages(run.requests, search);
    DedupEmpty(all);
    GatherEmpty(run.requests, search);
    forall t | t in run.tracks
      ensures t in all
    {
      assert t in d;
    }
  }

  /** Every gathered track has an id and a name. */
  lemma {:induction false} GatherNamed(requests: seq<SearchRequest>, search: SearchApi)
    ensures forall t :: t in Gather(requests, search) ==> t.id != "" && t.name != ""
    decreases |requests|
  {
    if |requests| > 0 {
      GatherNamed(requests[1..], search);
    }
  }

  /** The search rejected, or its page has no usable item. */
  predicate NothingUsable(page: Option<Page>) {
    page.None? || forall k :: 0 <= k < |page.value| ==> !Usable(page.value[k])
  }

  /** `t` is the conversion of a usable item of the page some request got. */
  predicate FromSearched(t: Track, requests: seq<SearchRequest>, search: SearchApi) {
    exists i :: 0 <= i < |requests| && search(requests[i]).Some? && FromPage(t, search(requests[i]).value)
  }

  /** A request contributes nothing exactly when its page has nothing usable. */
  lemma FoundEmpty(request: SearchRequest, search: SearchApi)
    ensures Found(request, search) == [] <==> NothingUsable(search(request))
  {
    if search(request).Some? {
      AcceptPageEmpty(search(request).value);
    }
  }

  /** Nothing is gathered exactly when no searched page has a usable item. */
  lemma {:induction false} GatherEmpty(requests: seq<SearchRequest>, search: SearchApi)
    ensures Gather(requests, search) == [] <==> forall i :: 0 <= i < |requests| ==> NothingUsable(search(requests[i]))
    decreases |requests|
  {
    if |requests| > 0 {
      GatherEmpty(requests[1..], search);
      FoundEmpty(requests[0], search);
      assert forall i :: 1 <= i < |requests| ==> requests[i] == requests[1..][i - 1];
    }
  }

  /** Every gathered track converts a usable item of a searched page. */
  lemma {:induction false} GatherFromPages(requests: seq<SearchRequest>, search: SearchApi)
    ensures forall t :: t in Gather(requests, search) ==> FromSearched(t, requests, search)
    decreases |requests|
  {
    if |requests| > 0 {
      GatherFromPages(requests[1..], search);
      forall t | t in Gather(requests, search)
        ensures FromSearched(t, requests, search)
      {
        var found := Found(requests[0], search);
        if t in found {
          var k :| 0 <= k < |found| && found[k] == t;
          assert FromPage(t, search(requests[0]).value);
        } else {
          assert FromSearched(t, requests[1..], search);
          var i :| 0 <= i < |requests[1..]| && search(requests[1..][i]).Some? && FromPage(t, search(requests[1..][i]).value);
          assert requests[i + 1] == requests[1..][i];
        }
      }
    }
  }

  /** De-duplication empties only the empty list. */
  lemma DedupEmpty(ts: seq<Track>)
    ensures Dedup(ts) == [] <==> ts == []
  {
    DedupIds(ts);
    if ts != [] {
      assert ts[0].id in Ids(ts);
    }
  }

  /** `searchTracks` as the route runs it: one search per term, pushing each
      page's usable items, then the de-duplication and the cap. */
  method RunSearchTracks(terms: seq<string>, accessToken: string, search: SearchApi) returns (requests: seq<SearchRequest>, tracks: seq<Track>)
    ensures SearchRun(requests, tracks) == SearchTracks(terms, accessToken, search)
  {
    var limited := Prefix(terms, MaxSearchTerms);
    requests := [];
    var all: seq<Track> := [];
    for i := 0 to |limited|
      invariant requests == Requests(terms, accessToken)[..i]
      invariant all == Gather(requests, search)
    {
      var request := RequestFor(accessToken, limited[i]);
      var page := search(request);
      GatherAppend(requests, [request], search);
      GatherCons(request, [], search);
      requests := requests + [request];
      match page {
        case Some(items) => all := all + AcceptPage(items);
        case None =>
      }
    }
    assert requests == Requests(terms, accessToken);
    var unique := DedupWithSeenSet(all);
    tracks := Prefix(unique, MaxTracks);
  }
}

=== FILE: text.dfy ===
/** The handful of JavaScript string and array operations the pipeline relies
    on, written over `seq<char>`: `toLowerCase`, `includes`, `startsWith`,
    `trim`, `join`, `slice(0, n)` and number-to-decimal rendering. */
module Text {

  /** `Array.prototype.slice(0, n)` / `String.prototype.substring(0, n)`:
      the first `n` elements, or all of them when there are fewer. */
  function Prefix<T>(xs: seq<T>, n: nat): (r: seq<T>)
    ensures |r| == if |xs| < n then |xs| else n
    ensures r <= xs
  {
    if |xs| < n then xs else xs[..n]
  }

  /** Lower-cases one character (ASCII letters only; see README). */
  function LowerChar(c: char): char {
    if 'A' <= c <= 'Z' then (c as int + 32) as char else c
  }

  function ToLower(s: string): (r: string)
    ensures |r| == |s|
    ensures forall i :: 0 <= i < |s| ==> r[i] == LowerChar(s[i])
  {
    if |s| == 0 then "" else [LowerChar(s[0])] + ToLower(s[1..])
  }

  /** Lower-casing twice is lower-casing once. */
  lemma ToLowerIdempotent(s: string)
    ensures ToLower(ToLower(s)) == ToLower(s)
  {
    var l := ToLower(s);
    assert forall i :: 0 <= i < |l| ==> ToLower(l)[i] == l[i];
  }

  /** `s.startsWith(p)`. */
  predicate IsPrefix(p: string, s: string) {
    |p| <= |s| && s[..|p|] == p
  }

  /** `s.endsWith(p)`. */
  predicate IsSuffix(p: string, s: string) {
    |p| <= |s| && s[|s| - |p|..] == p
  }

  /** `s.includes(sub)`: `sub` occurs at some position of `s`. */
  predicate Contains(s: string, sub: string)
    decreases |s|
  {
    IsPrefix(sub, s) || (|s| > 0 && Contains(s[1..], sub))
  }

  /** `sub` occurs in `s` starting at offset `i`. */
  predicate OccursAt(s: string, sub: string, i: int) {
    0 <= i <= |s| - |sub| && s[i..i + |sub|] == sub
  }

  /** `Contains` is exactly "occurs at some offset". */
  lemma {:induction false} ContainsAt(s: string, sub: string)
    ensures Contains(s, sub) <==> exists i :: OccursAt(s, sub, i)
    decreases |s|
  {
    if IsPrefix(sub, s) {
      assert OccursAt(s, sub, 0);
    } else if |s| == 0 {
    } else {
      ContainsAt(s[1..], sub);
      if exists i :: OccursAt(s, sub, i) {
        var i :| OccursAt(s, sub, i);
        assert i != 0;
        assert s[1..][i - 1..i - 1 + |sub|] == s[i..i + |sub|];
        assert OccursAt(s[1..], sub, i - 1);
      }
      if exists i :: OccursAt(s[1..], sub, i) {
        var i :| OccursAt(s[1..], sub, i);
        assert s[1..][i..i + |sub|] == s[i + 1..i + 1 + |sub|];
        assert OccursAt(s, sub, i + 1);
      }
    }
  }

  /** The characters `String.prototype.trim` removes: ECMAScript WhiteSpace
      (tab, vertical tab, form feed, space, no-break space, byte order mark
      and the Unicode space separators) and LineTerminator. */
  predicate IsJsSpace(c: char) {
    || c == ' ' || c == '\t' || c == '\n' || c == '\r'
    || c == '\U{000B}' || c == '\U{000C}' || c == '\U{00A0}' || c == '\U{FEFF}'
    || c == '\U{1680}' || ('\U{2000}' <= c <= '\U{200A}')
    || c == '\U{2028}' || c == '\U{2029}' || c == '\U{202F}' || c == '\U{205F}'
    || c == '\U{3000}'
  }

  function TrimStart(s: string): (r: string)
    ensures |r| <= |s| && r == s[|s| - |r|..]
    ensures |r| > 0 ==> !IsJsSpace(r[0])
    ensures forall i :: 0 <= i < |s| - |r| ==> IsJsSpace(s[i])
  {
    if |s| > 0 && IsJsSpace(s[0]) then TrimStart(s[1..]) else s
  }

  function TrimEnd(s: string): (r: string)
    ensures |r| <= |s| && r == s[..|r|]
    ensures |r| > 0 ==> !IsJsSpace(r[|r| - 1])
    ensures forall i :: |r| <= i < |s| ==> IsJsSpace(s[i])
  {
    if |s| > 0 && IsJsSpace(s[|s| - 1]) then TrimEnd(s[..|s| - 1]) else s
  }

  /** `s.trim()`: strips leading and trailing white space, nothing else. */
  function Trim(s: string): (r: string)
    ensures |r| > 0 ==> !IsJsSpace(r[0]) && !IsJsSpace(r[|r| - 1])
    ensures exists k :: OccursAt(s, r, k)
  {
    var t := TrimStart(s);
    var u := TrimEnd(t);
    assert OccursAt(s, u, |s| - |t|);
    u
  }

  /** Text that neither starts nor ends with white space is left alone. */
  lemma TrimUnpadded(s: string)
    requires |s| > 0 ==> !IsJsSpace(s[0]) && !IsJsSpace(s[|s| - 1])
    ensures Trim(s) == s
  {
  }

  /** `xs.join(sep)`. */
  function Join(xs: seq<string>, sep: string): string
    decreases |xs|
  {
    if |xs| == 0 then ""
    else if |xs| == 1 then xs[0]
    else xs[0] + sep + Join(xs[1..], sep)
  }

  function DigitChar(d: nat): char
    requires d < 10
  {
    "0123456789"[d]
  }

  /** Decimal rendering of a non-negative integer, as `${n}` prints it. */
  function Decimal(n: nat): (r: string)
    ensures |r| > 0
    ensures forall i :: 0 <= i < |r| ==> '0' <= r[i] <= '9'
  {
    if n < 10 then [DigitChar(n)] else Decimal(n / 10) + [DigitChar(n % 10)]
  }
}

=== FILE: token_cache.dfy ===
/** The Express server's app-level token (`getSpotifyToken` in spotify.ts
    and its bundled copy): one cached credential, reused while the clock is
    before its expiry, refreshed through the client-credentials endpoint
    otherwise. The clock reading and the token endpoint's answer are
    parameters. */
module TokenCache {
  import opened Wrappers
  import opened Config

  /** 55 minutes in milliseconds: the token is valid for 60, and is
      refreshed 5 minutes early. */
  const CacheLifetimeMs: int := 55 * 60 * 1000

  datatype Credential = Credential(token: string, expires: int)

  /** What the token endpoint did: the fetch (or reading its JSON) threw,
      it answered with a non-ok status, or it granted a token. */
  datatype TokenResponse = FetchFailed(message: string) | NotOk(statusText: string) | Granted(accessToken: string)

  /** The result of one `getSpotifyToken` call, the cache after it, and
      whether the token endpoint was contacted. */
  datatype TokenStep = TokenStep(result: Result<string, string>, cache: Option<Credential>, fetched: bool)

  const MissingCredentials: string := "Spotify credentials not configured"
  const AuthFailedPrefix: string := "Spotify auth failed: "

  /** The cached credential is still good at `now`. */
  predicate Fresh(cache: Option<Credential>, now: int) {
    cache.Some? && now < cache.value.expires
  }

  /** `getSpotifyToken()` at clock reading `now`. */
  function GetSpotifyToken(cache: Option<Credential>, now: int, env: Env, response: TokenResponse): (s: TokenStep)
    ensures Fresh(cache, now) ==> s == TokenStep(Ok(cache.value.token), cache, false)
    ensures s.fetched <==> !Fresh(cache, now) && HasSpotifyCredentials(env)
    ensures !Fresh(cache, now) && !HasSpotifyCredentials(env) ==> s.result == Err(MissingCredentials)
    ensures s.result.Err? ==> s.cache == cache
    ensures s.cache != cache ==>
      (&& s.fetched && response.Granted?
       && s.cache == Some(Credential(response.accessToken, now + CacheLifetimeMs))
       && s.result == Ok(response.accessToken))
  {
    if Fresh(cache, now) then TokenStep(Ok(cache.value.token), cache, false)
    else if !HasSpotifyCredentials(env) then TokenStep(Err(MissingCredentials), cache, false)
    else match response
      case FetchFailed(message) => TokenStep(Err(message), cache, true)
      case NotOk(statusText) => TokenStep(Err(AuthFailedPrefix + statusText), cache, true)
      case Granted(token) => TokenStep(Ok(token), Some(Credential(token, now + CacheLifetimeMs)), true)
  }

  /** A successful refresh at `t0` serves every later call before
      `t0 + 55 min` from the cache, with the same token and no fetch,
      whatever the endpoint or the environment would say then. */
  lemma RefreshThenHit(cache: Option<Credential>, t0: int, env: Env, token: string, t1: int, env1: Env, response1: TokenResponse)
    requires !Fresh(cache, t0) && HasSpotifyCredentials(env)
    requires t0 <= t1 < t0 + CacheLifetimeMs
    ensures var first := GetSpotifyToken(cache, t0, env, Granted(token));
      var second := GetSpotifyToken(first.cache, t1, env1, response1);
      && first.result == Ok(token)
      && second.result == Ok(token) && !second.fetched && second.cache == first.cache
  {
  }

  /** From `expires` on, the cached token is never used: with credentials
      the endpoint is asked again, and a failure there is reported, not
      masked by the stale token. */
  lemma ExpiredIsRefetched(c: Credential, now: int, env: Env, response: TokenResponse)
    requires c.expires <= now
    ensures var s := GetSpotifyToken(Some(c), now, env, response);
      && (HasSpotifyCredentials(env) <==> s.fetched)
      && (response.Granted? && HasSpotifyCredentials(env) ==> s.result == Ok(response.accessToken))
      && (!response.Granted? ==> s.result.Err?)
  {
  }

  /** The cache as single-threaded mutable state, with the clock passed in. */
  class Cache {
    var cached: Option<Credential>

    constructor()
      ensures cached == None
    {
      cached := None;
    }

    method GetToken(now: int, env: Env, response: TokenResponse) returns (result: Result<string, string>, fetched: bool)
      modifies this
      ensures var s := GetSpotifyToken(old(cached), now, env, response);
        result == s.result && fetched == s.fetched && cached == s.cache
    {
      if cached.Some? && now < cached.value.expires {
        return Ok(cached.value.token), false;
      }
      if !HasSpotifyCredentials(env) {
        return Err(MissingCredentials), false;
      }
      match response {
        case FetchFailed(message) =>
          result, fetched := Err(message), true;
        case NotOk(statusText) =>
          result, fetched := Err(AuthFailedPrefix + statusText), true;
        case Granted(token) =>
          cached := Some(Credential(token, now + CacheLifetimeMs));
          result, fetched := Ok(token), true;
      }
    }
  }
}

=== FILE: wrappers.dfy ===
/** Failure-carrying datatypes shared by every module of the model.
    `Option` stands for a JavaScript value that may be `null`/`undefined`
    (or an upstream request that rejected), `Result` for a promise that
    either resolves to a value or rejects with an error message. */
module Wrappers {

  datatype Option<+T> = None | Some(value: T) {
    function GetOr(default: T): T {
      match this
      case Some(v) => v
      case None => default
    }
  }

  datatype Result<+T, +E> = Ok(value: T) | Err(error: E)
}
